=== FILE: README.md ===
# ID-CNN graph bookkeeping of the FoolNLTK trainer (`train/cnn.py`)

The `CNN` class of FoolNLTK's trainer builds an iterated dilated
convolutional network (ID-CNN) with a CRF loss in TensorFlow. This project
models the integer and shape logic of that class in Dafny. The floating-point
tensor numerics are not modelled. The model has three parts:

- **Sequence-length decoding** (`Lengths`). The `sequence_lengths` input is a
  (batch, K) int32 matrix. `compute_loss` reduces each row to one length: the
  row's sum plus two for every zero entry, in int32 arithmetic.
- **The bookkeeping of `forward`** (`Layers`, `Variables`, `Stack`,
  `StackProofs`). Every tensor is replaced by its shape, and every trainable
  variable by its (scope, name) identity and requested shape. `forward` is
  modelled as a fold:
  - the initial `conv0` convolution;
  - then `repeats` repetitions of the layer list (`layers_map`), each a fold
    over the layers;
  - then the concatenation of the "take" layers, the optional bottleneck
    projection and the output layer.

  The variable store models `tf.get_variable` inside a variable scope:
  - with `reuse` off, a name that already exists is an error, and otherwise
    the variable is created;
  - with `reuse` on, the name must exist with the same shape.

  Configurations that cannot be built become errors at the point where the
  code fails:
  - an empty layer list;
  - a layer name that makes the name scope `atrous-conv-<name>` invalid
    (a character other than a letter, a digit, `_`, `.`, `-` or `/`),
    before that layer's weight (line 165);
  - a negative filter width, at the weight that gets it (line 136 for
    `conv0`, line 168 for a stacked layer);
  - a dilation rate below one, at the atrous convolution after the layer's
    bias (line 170);
  - a repetition with no taken layer;
  - zero repetitions;
  - a duplicate name;
  - a shared scope whose first layer is asked for with two different
    input-channel counts.
- **The constructor** (`Network`). It makes a first call of `forward` with
  dropout that creates the variables, and a second, dropout-free call that
  reuses them. It keeps the last score tensor of each call (each score
  tensor is tagged with the repetition that produced it), and the loss is
  assembled from the CRF term, the L2 accumulator and the dropout-consistency
  term.

Modules and files:

| file | module | content |
|---|---|---|
| `lengths.dfy` | `Lengths` | length decoder, int32 wrap-around |
| `numerals.dfy` | `Numerals` | `str(k)` for repetition scope names, with its parse inverse |
| `layers.dfy` | `Layers` | layer records, network settings, taken width |
| `variables.dfy` | `Variables` | variable store, `get_variable`, build errors |
| `stack.dfy` | `Stack` | `forward`: layer loop, repetitions, scopes, requested variables |
| `stack_proofs.dfy` | `StackProofs` | scope ownership, second call reuses, when the first call builds, variable count |
| `network.dfy` | `Network` | constructor, composite loss, L2 accumulator |

Notes on the code:

- A stacked layer's bias constant is 0.001, or 0.0 for `identity` and
  `varscale` initialisation. The `conv0`, projection and output biases are
  0.01.
- Negative length entries are not rejected. The decoder adds them like any
  other value.
- The constructor fixes `repeats = 1`, `share_repeats = 1` and
  `projection = True`. `Stack`, `StackProofs` and `Network.Construct` are
  stated for any setting, with `share_repeats` read by its truth value (see
  "Left out"); the other `Network` members use the fixed ones.
- `l2_loss` is not reset between the two calls of `forward`. See Findings.

## Model

| member | source | states |
|---|---|---|
| Lengths.DecodeLengths | train/cnn.py:92-95 | exactly one length per row (per example); each is the row's sum plus twice its number of zero entries, wrapped to int32 |
| Lengths.Wrap32 | train/cnn.py:93-95 | int32 wrap-around: the result is in the int32 range, congruent to the input modulo 2^32, and equal to any input already in range |
| Lengths.DecodeIsSlotTotal | train/cnn.py:92-95 | the decoded length equals an independent slot-by-slot reading of the row: a zero slot counts 2, any other slot counts its value |
| Lengths.DecodeWithoutZeros | train/cnn.py:92-95 | a row with no zero entry decodes to its plain sum |
| Lengths.DecodeAppendZero | train/cnn.py:92-95 | appending a zero entry adds exactly 2 to the decoded total; the int32 length grows by 2 modulo 2^32, and by exactly 2 while the total stays in the int32 range |
| Lengths.DecodeInsertZero | train/cnn.py:92-95 | inserting a zero entry anywhere in a row adds exactly 2 to the decoded total; the int32 length grows by 2 modulo 2^32, and by exactly 2 while the total stays in the int32 range |
| Lengths.DecodeConcat | train/cnn.py:92-95 | decoding distributes over splitting a row into two parts |
| Lengths.DecodeCoversSlots | train/cnn.py:92-95 | for non-negative entries the decoded total is at least the number of slots and is zero exactly for an empty row; the int32 length keeps both facts whenever the total does not exceed the int32 maximum |
| Lengths.DecodeOverflowExample | train/cnn.py:92-95 | the row [2147483647, 1] has total 2^31 and its int32 length wraps to the int32 minimum, below the number of slots; appending a zero to [2147483646] takes its length from 2147483646 to the int32 minimum |
| Lengths.DecodeExamples | train/cnn.py:92-95 | [3, 0, 2] decodes to 7 and [5, 5] to 10 |
| Numerals.ParseToDecimal | train/cnn.py:151 | reading the decimal rendering of a repetition index back gives the index |
| Numerals.ToDecimalInjective | train/cnn.py:151 | two indices render to the same string exactly when they are equal |
| Layers.TakenCountPositive | train/cnn.py:174-180 | the list of concatenated outputs is non-empty exactly when some layer has `take` set |
| Layers.LayerBias | train/cnn.py:169 | a stacked layer's bias constant is 0.0 exactly for `identity` and `varscale` initialisation, and 0.001 otherwise |
| Layers.FirstBadLayer | train/cnn.py:155-170 | the index of the first layer with an invalid name-scope name, a negative width or a dilation rate below one (the list length when there is none): every earlier layer is well formed |
| Variables.GetVariable | train/cnn.py:168-169 | one `get_variable`: with reuse it succeeds exactly when the name is stored with the requested shape, and leaves the store as it was; without reuse it succeeds exactly when the name is new, and adds exactly that variable; existing variables never change |
| Variables.GetVariables | train/cnn.py:154-169 | a run of requests in one scope: with reuse, success exactly when every request is met, and nothing changes; without reuse, success exactly when all names are new and pairwise different, and exactly those variables are added |
| Variables.FreshAppend | train/cnn.py:154-169 | creating two runs of variables one after the other succeeds exactly when creating their concatenation at once does |
| Stack.BlockScope | train/cnn.py:150-154 | every repetition scope is named "block" plus a suffix: none when shared, else a decimal numeral that reads back as the repetition index; it reuses exactly for a later shared repetition or under an outer reuse |
| Stack.ProjWidth | train/cnn.py:196-204 | with projection, the output layer's input width is the floor of the concatenated width over twice the number of taken layers; without projection it is the concatenated width |
| Stack.RunLayersTaken | train/cnn.py:174-176 | the layer loop collects the filters of exactly the taken layers, in order, and its running total is their sum |
| Stack.RunLayersRequests | train/cnn.py:155-177 | layer i asks for a weight [1, width, in, filters] and a bias [filters]; its in-channels are the previous layer's filters, or the incoming width for the first layer |
| Stack.EnterBlockFacts | train/cnn.py:147-177 | a repetition's first layer takes the repetition's incoming width; the repetition's concatenated width is the taken layers' total |
| Stack.Conv0Requests | train/cnn.py:117-137 | the initial convolution asks for two distinct variables directly under `forward`: a weight of the first layer's width with `embedding_size` in-channels and the first layer's filters as out-channels, and a bias with one entry per out-channel |
| Stack.TailRequests | train/cnn.py:193-210 | with projection: `w_p` [total, pw] and `b_p` [pw] with pw the floor of total / (2 × taken), then `w_o` [pw, num_classes] and `b_o` [num_classes]; without projection only `w_o` [total, num_classes] and `b_o` [num_classes] |
| Stack.OutputLayerRequests | train/cnn.py:155-210 | a repetition with a taken layer asks for 2 × #layers layer variables, then `w_p` [taken width, pw] when projecting, and last `w_o` [pw, num_classes] and `b_o`, where pw is the projected width (the taken width without projection) |
| Stack.RunBlock | train/cnn.py:147-215 | when one repetition succeeds, every layer is well formed, there is a taken layer, the score tensor is tagged with this repetition's index and has shape (batch, max_seq_len, num_classes), and no earlier variable changes |
| Stack.InvalidFirstName | train/cnn.py:165 | a first layer whose name makes an invalid name scope stops its repetition there, with that name-scope error and before any layer variable is asked for |
| Stack.RunBlockFacts | train/cnn.py:147-215 | a repetition succeeds exactly when every layer name makes a valid name scope, every layer has a non-negative width and a dilation rate of at least one, it has a taken layer, and its variables are all present with the right shapes (reuse) or all new (create). On success its output width becomes the next input width, its score tensor is tagged with its index and has shape (batch, max_seq_len, num_classes), the store gains exactly its variables (or nothing when reusing), and it adds its output weight and bias to the L2 accumulator |
| Stack.RunBlocks | train/cnn.py:147-215 | running the repetitions from k on keeps every earlier variable, yields one score tensor and one pair of L2 terms per repetition, and chains each repetition's taken width into the next one's input |
| Stack.Forward | train/cnn.py:106-217 | an empty layer list fails, and so does a negative width of the first layer (at `conv0_w`). On success: every layer is well formed, there is a taken layer and at least one repetition; there are exactly `repeats` score tensors, the j-th from repetition j, each of shape (batch, max_seq_len, num_classes); the returned hidden state has the taken width; `conv0` has `embedding_size` in-channels and the first layer's width and filters; no earlier variable changes |
| StackProofs.SharedScopes | train/cnn.py:150-154 | with `share_repeats`, every repetition uses scope "block" and reuses from the second repetition on; an outer reuse makes every repetition reuse |
| StackProofs.UnsharedScopes | train/cnn.py:150-154 | without sharing, repetition scope names are equal exactly for equal indices, and each repetition reuses exactly when the whole call does |
| StackProofs.BlockRequestsInScope | train/cnn.py:154-210 | every variable a repetition asks for lives in that repetition's scope |
| StackProofs.BlockRequestsDistinct | train/cnn.py:155-210 | with distinct layer names, a repetition never asks for the same variable twice |
| StackProofs.BlockRequestsFresh | train/cnn.py:154-210 | a repetition whose scope no stored variable uses can create all of its variables |
| StackProofs.SharedWidthAgrees | train/cnn.py:150-167 | when two or more repetitions share a scope and succeed, the concatenated width equals the first layer's filters |
| StackProofs.FirstPassIff | train/cnn.py:115-217 | a first call on a store without these variables succeeds exactly when: the layer list is non-empty, its names are distinct and make valid name scopes, every width is non-negative and every dilation rate at least one, some layer is taken, there is at least one repetition, and a shared scope with two or more repetitions has a taken width equal to the first layer's filters |
| StackProofs.SecondPassReuses | train/cnn.py:65-75 | after a successful first call, the second call (outer reuse) succeeds, creates nothing, and adds the same output variables to the L2 accumulator |
| StackProofs.ParameterCount | train/cnn.py:136-210 | a first call creates 2 + n × (2 × #layers + 4, or + 2 without projection) variables; n is 1 with shared scopes and `repeats` otherwise |
| StackProofs.SingleLayerExample | train/cnn.py:147-215 | one taken layer of 8 filters, projection off, batch 2, length 4, 3 classes: one score tensor, from repetition 0, of shape (2, 4, 3), output-layer input width 8, 6 variables |
| Network.BothPassesFacts | train/cnn.py:65-75 | both calls succeed exactly when the first can be built; the second then runs on the first call's variables and adds the same output variables |
| Network.Construct | train/cnn.py:65-78 | for any setting, the constructor's graph exists exactly for a buildable configuration (the conditions of `StackProofs.FirstPassIff`); the predictions and the dropout-free scores are the tensors of repetition `repeats` − 1, of shape (batch, max_seq_len, num_classes), and the accumulator holds two terms per repetition |
| Network.SourcePasses | train/cnn.py:16-22 | with the constructor's settings, the two calls succeed exactly for a non-empty layer list with distinct names that make valid name scopes, non-negative widths, dilation rates of at least one and a taken layer; each yields one score tensor, from repetition 0, of shape (batch, max_seq_len, num_tags), and the store holds 2 × #layers + 6 variables |
| Network.Build | train/cnn.py:65-82 | the constructor's graph (lines 65-82) is built exactly for a non-empty layer list with distinct names that make valid name scopes, non-negative widths, dilation rates of at least one and a taken layer; the predictions and the dropout-free scores are the tensors of the single repetition, of shape (batch, max_seq_len, num_tags); the L2 accumulator holds the output weight and bias of scope "block" |
| Network.InvalidNameExample | train/cnn.py:165 | the layer name "conv 1" makes the name scope invalid, so the constructor's graph (lines 65-82) cannot be built |
| Network.CompositeLoss | train/cnn.py:87-104 | with both penalty weights zero the loss is the CRF term alone; non-negative weights and penalties never lower it below the CRF term |
| Network.L2Loss | train/cnn.py:211-212 | the L2 accumulator adds the terms' squared norms in order, from zero for no terms; with non-negative squared norms it is non-negative and at least each of its terms |
| Network.BuildCountsOutputOnce | train/cnn.py:211-212 | the corrected accumulator counts the output weight and bias exactly once each |
| Network.BuildAsWritten | train/cnn.py:55-75 | as written, the constructor's graph (lines 65-82) is built in the same cases, and the accumulator holds the output weight and bias twice each |
| Network.L2CountedTwice | train/cnn.py:55-75 | as written, the constructor equals the corrected one except that its accumulator is the corrected one repeated, so the L2 penalty is exactly twice as large |
| Network.L2DoubleCountExample | train/cnn.py:65-75 | with one taken layer, the as-written accumulator is [w_o, b_o, w_o, b_o] and the corrected one is [w_o, b_o] |

## Left out

- Convolutions, atrous convolutions, bias addition, nonlinearities, dropout and dense layers: these are floating-point tensor numerics executed by TensorFlow. Only their shapes and variables are modelled. The dilation rate is only checked to be at least one. It does not affect any shape, because "SAME" padding keeps the time dimension.
- The CRF log-likelihood (`crf_log_likelihood`): a foreign call over floats. It is an input of `Network.CompositeLoss`.
- Network.CompositeLoss: works over mathematical reals, not float32. The CRF value, the squared output norms and the dropout-consistency value are inputs.
- Network.L2Loss: the squared norm of each variable is a parameter. Tensor values are not modelled.
- Negative filter counts: `filters` is a natural number in the layer record, so a negative count is outside the model. Under the `tf_utils` assumption below it would be rejected at the layer's weight (line 168, or line 136 for the first layer).
- Lengths.DecodeAppendZero: the int32 length grows by exactly 2 only while the decoded total stays in the int32 range. Past 2^31 - 1 it wraps, as `Lengths.DecodeOverflowExample` shows; beyond that only the growth modulo 2^32 is stated.
- Lengths.DecodeInsertZero: the same limit as `Lengths.DecodeAppendZero`. The int32 length grows by exactly 2 only while the total stays in the int32 range, and by 2 modulo 2^32 otherwise.
- Lengths.DecodeCoversSlots: the lower bound on the int32 length holds only while the decoded total stays at or below the int32 maximum. Past it the length wraps, as `Lengths.DecodeOverflowExample` shows.
- Weight and embedding initialisation in `tf_utils`: tf_utils is not part of this model. `initialize_weights` is taken to create or fetch the variable by name and shape through `get_variable` in the current scope, so a shape with a negative entry is rejected there. Only the name of the initialisation scheme is recorded.
- The variables `transitions` and `w_e`, created outside the `forward` scope: not part of the variable store modelled here.
- `share_repeats` as a boolean: the code stores the int `1` (line 22), and line 150 then yields `reuse_block = 1` from the second repetition on. Line 154 passes that to `tf.variable_scope`. The model reads the flag by truth value, so every statement about shared scopes with two or more repetitions (`StackProofs.SharedScopes`, `StackProofs.SharedWidthAgrees`, `StackProofs.FirstPassIff`, `StackProofs.ParameterCount`, `Network.Construct`) assumes that TensorFlow accepts `1` as a reuse flag. A TensorFlow release that accepts only `True`, `False`, `None` or `AUTO_REUSE` by identity would fail there instead. The constructor's own setting (one repetition) only ever passes `False` or the outer `reuse`.
- Stack.ProjWidth: computes the floor of an exact quotient. Python's `int(a / b)` divides in double precision, which agrees with it only below 2^53.
- The `name_scope` blocks: they name operations, not variables. Only the validity check on the `atrous-conv-<name>` scope (line 165) is modelled. The other scopes are built from fixed names and a repetition index, so they are always valid. The accepted characters are letters, digits, `_`, `.`, `-` and `/`; TensorFlow releases that also accept `>` differ for names containing it.
- `train()`, learning-rate decay and the optimizer; placeholders and `placeholder_with_default`; `global_step`; print diagnostics. These are framework glue and I/O.
- Batch size and maximum sequence length: dynamic tensor dimensions, so they are parameters of `forward`.

## Findings

| source | as written | input that shows it | evidently intended | confidence | as-written member | corrected member |
|---|---|---|---|---|---|---|
| train/cnn.py:211-212 | `l2_loss` starts at zero once (line 55). Both calls of `forward` (lines 65 and 75) add the output weight's and bias's squared norms to it, so it holds every term twice | any buildable layer list, e.g. the single taken layer `conv1` (width 3, 8 filters) | the L2 penalty covers the dropout call's output variables once | medium; not executed | Network.BuildAsWritten (shown by Network.L2DoubleCountExample and Network.L2CountedTwice) | Network.Build (shown by Network.BuildCountsOutputOnce) |

=== FILE: layers.dfy ===
/** Static description of the ID-CNN: the configurable layer list
    (`layers_map`) and the network-wide settings fixed by the `CNN`
    constructor. */
module Layers {

  /** One entry of `layers_map`: its name and its settings dictionary. The
      initialisation scheme is kept as the string the settings give; the
      network itself only compares it with "identity" and "varscale". */
  datatype Layer = Layer(name: string, dilation: int, width: int, filters: nat, init: string, take: bool)

  datatype NetConfig = NetConfig(
    numClasses: nat,
    embeddingSize: nat,
    repeats: nat,
    shareRepeats: bool,
    projection: bool,
    layers: seq<Layer>)

  /** The settings the constructor fixes: one repetition, shared
      repetition scopes, projection on. */
  function SourceConfig(numTags: nat, charDim: nat, layers: seq<Layer>): NetConfig
  {
    NetConfig(numTags, charDim, 1, true, true, layers)
  }

  /** Bias constant of a stacked layer: zero for the identity-preserving
      initialisations, a small positive constant otherwise. */
  function LayerBias(init: string): (b: real)
    ensures b == 0.0 <==> init == "identity" || init == "varscale"
    ensures b == 0.0 || b == 0.001
  {
    if init == "identity" || init == "varscale" then 0.0 else 0.001
  }

  /** A character TensorFlow accepts in a name scope opened below the
      root: a letter, a digit, `_`, `.`, `-` or `/`. */
  predicate ScopeNameChar(c: char)
  {
    ('A' <= c <= 'Z') || ('a' <= c <= 'z') || ('0' <= c <= '9') || c == '_' || c == '.' || c == '-' || c == '/'
  }

  predicate ValidScopeName(s: string)
  {
    forall i :: 0 <= i < |s| ==> ScopeNameChar(s[i])
  }

  /** A layer the layer loop can get through: its name makes a valid name
      scope, its weight shape has no negative dimension, and its dilation
      rate is at least one (the atrous convolution rejects smaller rates). */
  predicate LayerOk(layer: Layer)
  {
    ValidScopeName(layer.name) && layer.width >= 0 && layer.dilation >= 1
  }

  predicate AllLayersOk(layers: seq<Layer>)
  {
    forall i :: 0 <= i < |layers| ==> LayerOk(layers[i])
  }

  /** Index of the first layer the loop cannot get through, or the number
      of layers when there is none. */
  function FirstBadLayer(layers: seq<Layer>): (i: nat)
    ensures i <= |layers|
    ensures forall j :: 0 <= j < i ==> LayerOk(layers[j])
    ensures i < |layers| ==> !LayerOk(layers[i])
    decreases |layers|
  {
    if |layers| == 0 || !LayerOk(layers[0]) then 0
    else 1 + FirstBadLayer(layers[1..])
  }

  function Total(xs: seq<nat>): nat
  {
    if |xs| == 0 then 0 else xs[0] + Total(xs[1..])
  }

  /** Filter counts of the layers marked `take`, in layer order: the
      channel counts of the tensors concatenated at the end of a block. */
  function TakenFilters(layers: seq<Layer>): seq<nat>
  {
    if |layers| == 0 then []
    else (if layers[0].take then [layers[0].filters] else []) + TakenFilters(layers[1..])
  }

  /** Channel width of a block's concatenated output. */
  function TakenWidth(layers: seq<Layer>): nat
  {
    Total(TakenFilters(layers))
  }

  function TakenCount(layers: seq<Layer>): nat
  {
    |TakenFilters(layers)|
  }

  /** Input channel count of layer `i` of a block entered with `inDims`
      channels: the incoming width for the first layer, the previous
      layer's filters after that. */
  function InputChannels(layers: seq<Layer>, inDims: nat, i: nat): nat
    requires i < |layers|
  {
    if i == 0 then inDims else layers[i - 1].filters
  }

  predicate DistinctNames(layers: seq<Layer>)
  {
    forall i, j :: 0 <= i < j < |layers| ==> layers[i].name != layers[j].name
  }

  /** A layer list has a taken layer exactly when its taken width is
      carried by at least one concatenated tensor. */
  lemma {:induction false} TakenCountPositive(layers: seq<Layer>)
    ensures TakenCount(layers) > 0 <==> exists i :: 0 <= i < |layers| && layers[i].take
    decreases |layers|
  {
    if |layers| != 0 {
      TakenCountPositive(layers[1..]);
      if exists i :: 0 <= i < |layers| && layers[i].take {
        var i :| 0 <= i < |layers| && layers[i].take;
        if i > 0 {
          assert layers[1..][i - 1].take;
        }
      }
      if exists i :: 0 <= i < |layers[1..]| && layers[1..][i].take {
        var i :| 0 <= i < |layers[1..]| && layers[1..][i].take;
        assert layers[i + 1].take;
      }
    }
  }
}

=== FILE: lengths.dfy ===
/** The per-example sequence lengths handed to the CRF log-likelihood in
    `compute_loss`. The `sequence_lengths` input is a (batch, K) int32
    matrix rather than one length per example; every row is reduced to a
    single length: the sum of the row plus two for every zero entry. */
module Lengths {

  const Int32Modulus: int := 0x1_0000_0000
  const Int32Min: int := -0x8000_0000
  const Int32Max: int := 0x7fff_ffff

  /** Sum of a row, accumulated left to right (reduce_sum over axis 1). */
  function Sum(row: seq<int>): int
  {
    if |row| == 0 then 0 else Sum(row[..|row| - 1]) + row[|row| - 1]
  }

  /** Number of entries of a row that equal zero. */
  function ZeroCount(row: seq<int>): nat
  {
    if |row| == 0 then 0
    else ZeroCount(row[..|row| - 1]) + (if row[|row| - 1] == 0 then 1 else 0)
  }

  /** Decoded length of one row, in unbounded integers. */
  function DecodeRow(row: seq<int>): int
  {
    Sum(row) + 2 * ZeroCount(row)
  }

  /** What a single slot stands for when read on its own: a zero slot
      counts two, any other slot counts its value. */
  function SlotLength(x: int): int
  {
    if x == 0 then 2 else x
  }

  /** Independent reading of the decoder: the slot lengths added up from
      the front of the row. */
  function SlotTotal(row: seq<int>): int
  {
    if |row| == 0 then 0 else SlotLength(row[0]) + SlotTotal(row[1..])
  }

  /** Two's-complement wrap-around of an int32 tensor value. */
  function Wrap32(x: int): (r: int)
    ensures Int32Min <= r <= Int32Max
    ensures (x - r) % Int32Modulus == 0
    ensures Int32Min <= x <= Int32Max ==> r == x
  {
    (x - Int32Min) % Int32Modulus + Int32Min
  }

  /** The decoder as the graph computes it: sum and zero count per row,
      then one int32 length per row. */
  method DecodeLengths(rows: seq<seq<int>>) returns (lengths: seq<int>)
    ensures |lengths| == |rows|
    ensures forall i :: 0 <= i < |rows| ==> lengths[i] == Wrap32(DecodeRow(rows[i]))
  {
    lengths := [];
    var b := 0;
    while b < |rows|
      invariant 0 <= b <= |rows|
      invariant |lengths| == b
      invariant forall i :: 0 <= i < b ==> lengths[i] == Wrap32(DecodeRow(rows[i]))
    {
      var row := rows[b];
      var total := 0;
      var zeros := 0;
      var j := 0;
      while j < |row|
        invariant 0 <= j <= |row|
        invariant total == Sum(row[..j])
        invariant zeros == ZeroCount(row[..j])
      {
        assert row[..j + 1][..j] == row[..j];
        total := total + row[j];
        if row[j] == 0 {
          zeros := zeros + 1;
        }
        j := j + 1;
      }
      assert row[..|row|] == row;
      lengths := lengths + [Wrap32(total + 2 * zeros)];
      b := b + 1;
    }
  }

  lemma {:induction false} SumConcat(a: seq<int>, b: seq<int>)
    ensures Sum(a + b) == Sum(a) + Sum(b)
    ensures ZeroCount(a + b) == ZeroCount(a) + ZeroCount(b)
    decreases |b|
  {
    if |b| == 0 {
      assert a + b == a;
    } else {
      var b' := b[..|b| - 1];
      assert (a + b)[..|a + b| - 1] == a + b';
      SumConcat(a, b');
    }
  }

  /** Decoding distributes over splitting a row into two parts. */
  lemma DecodeConcat(a: seq<int>, b: seq<int>)
    ensures DecodeRow(a + b) == DecodeRow(a) + DecodeRow(b)
  {
    SumConcat(a, b);
  }

  /** The decoded length of a row is the total of its slot lengths. */
  lemma {:induction false} DecodeIsSlotTotal(row: seq<int>)
    ensures DecodeRow(row) == SlotTotal(row)
    decreases |row|
  {
    if |row| != 0 {
      assert row == [row[0]] + row[1..];
      DecodeConcat([row[0]], row[1..]);
      var head := [row[0]];
      assert head[..|head| - 1] == [];
      assert Sum(head) == row[0];
      assert ZeroCount(head) == (if row[0] == 0 then 1 else 0);
      DecodeIsSlotTotal(row[1..]);
    }
  }

  /** A row without zero entries decodes to its plain sum. */
  lemma {:induction false} DecodeWithoutZeros(row: seq<int>)
    requires forall i :: 0 <= i < |row| ==> row[i] != 0
    ensures DecodeRow(row) == Sum(row)
    decreases |row|
  {
    if |row| != 0 {
      DecodeWithoutZeros(row[..|row| - 1]);
    }
  }

  /** Appending a zero entry to a row adds exactly two to its decoded
      total. The int32 length grows by two modulo 2^32, and by exactly two
      while the total stays in the int32 range. */
  lemma DecodeAppendZero(row: seq<int>)
    ensures DecodeRow(row + [0]) == DecodeRow(row) + 2
    ensures (Wrap32(DecodeRow(row + [0])) - Wrap32(DecodeRow(row)) - 2) % Int32Modulus == 0
    ensures Int32Min <= DecodeRow(row) && DecodeRow(row) + 2 <= Int32Max ==>
      Wrap32(DecodeRow(row + [0])) == Wrap32(DecodeRow(row)) + 2
  {
    assert (row + [0])[..|row|] == row;
    WrapShift(DecodeRow(row), 2);
  }

  /** Inserting a zero entry anywhere in a row adds exactly two to its
      decoded total; the int32 length behaves as for an appended zero. */
  lemma DecodeInsertZero(a: seq<int>, b: seq<int>)
    ensures DecodeRow(a + [0] + b) == DecodeRow(a + b) + 2
    ensures (Wrap32(DecodeRow(a + [0] + b)) - Wrap32(DecodeRow(a + b)) - 2) % Int32Modulus == 0
    ensures Int32Min <= DecodeRow(a + b) && DecodeRow(a + b) + 2 <= Int32Max ==>
      Wrap32(DecodeRow(a + [0] + b)) == Wrap32(DecodeRow(a + b)) + 2
  {
    DecodeConcat(a + [0], b);
    DecodeAppendZero(a);
    DecodeConcat(a, b);
    WrapShift(DecodeRow(a + b), 2);
  }

  /** Shifting a value shifts its int32 wrap by the same amount, modulo
      2^32. */
  lemma WrapShift(x: int, d: int)
    ensures (Wrap32(x + d) - Wrap32(x) - d) % Int32Modulus == 0
  {
    var y := x - Int32Min;
    var k := y / Int32Modulus - (y + d) / Int32Modulus;
    assert Wrap32(x + d) - Wrap32(x) - d == k * Int32Modulus;
  }

  /** With non-negative entries every slot contributes at least one, so
      the decoded total is at least the number of slots, and it is zero
      exactly for an empty row. The int32 length the program computes
      keeps both facts as long as the total does not exceed the int32
      maximum; `DecodeOverflowExample` shows a row where it does not. */
  lemma {:induction false} DecodeCoversSlots(row: seq<int>)
    requires forall i :: 0 <= i < |row| ==> row[i] >= 0
    ensures DecodeRow(row) >= |row|
    ensures DecodeRow(row) == 0 <==> |row| == 0
    ensures DecodeRow(row) <= Int32Max ==> Wrap32(DecodeRow(row)) >= |row|
    ensures DecodeRow(row) <= Int32Max ==> (Wrap32(DecodeRow(row)) == 0 <==> |row| == 0)
    decreases |row|
  {
    DecodeIsSlotTotal(row);
    SlotTotalCoversSlots(row);
  }

  /** Rows whose total passes the int32 maximum: the computed length wraps
      to the int32 minimum, below the number of slots. Appending a zero to
      [2^31 - 2] takes its length from 2^31 - 2 to the int32 minimum. */
  lemma DecodeOverflowExample()
    ensures DecodeRow([Int32Max, 1]) == Int32Max + 1
    ensures Wrap32(DecodeRow([Int32Max, 1])) == Int32Min
    ensures Wrap32(DecodeRow([Int32Max - 1])) == Int32Max - 1
    ensures Wrap32(DecodeRow([Int32Max - 1, 0])) == Int32Min
  {
    var row := [Int32Max, 1];
    var first := [Int32Max];
    assert row[..1] == first && first[..0] == [];
    assert Sum(first) == Int32Max && ZeroCount(first) == 0;
    assert Sum(row) == Sum(first) + 1;
    assert ZeroCount(row) == ZeroCount(first);
    var near := [Int32Max - 1];
    assert near[..0] == [];
    assert Sum(near) == Int32Max - 1 && ZeroCount(near) == 0;
    DecodeAppendZero(near);
    assert near + [0] == [Int32Max - 1, 0];
    assert DecodeRow([Int32Max - 1, 0]) == DecodeRow([Int32Max, 1]);
  }

  lemma {:induction false} SlotTotalCoversSlots(row: seq<int>)
    requires forall i :: 0 <= i < |row| ==> row[i] >= 0
    ensures SlotTotal(row) >= |row|
    decreases |row|
  {
    if |row| != 0 {
      SlotTotalCoversSlots(row[1..]);
    }
  }

  /** Two example rows: [3, 0, 2] decodes to 7, [5, 5] to 10. */
  lemma DecodeExamples()
    ensures DecodeRow([3, 0, 2]) == 7
    ensures DecodeRow([5, 5]) == 10
  {
    DecodeIsSlotTotal([3, 0, 2]);
    DecodeIsSlotTotal([5, 5]);
  }
}

=== FILE: network.dfy ===
/** The `CNN` constructor's graph: one call of `forward` with dropout that
    creates every variable, a second, dropout-free call that reuses them,
    the last repetition's score tensors of both, and the composite loss
    built from them. */
module Network {
  import opened Layers
  import opened Variables
  import opened Stack
  import StackProofs

  /** What the constructor keeps: the variables under `forward`,
      `unflat_scores` (also the predictions), `unflat_no_dropout_scores`,
      the shape of the first call's hidden state, and the variables whose
      squared norms make up `l2_loss`. */
  datatype Model = Model(
    params: Store,
    scores: ScoreTensor,
    noDropoutScores: ScoreTensor,
    hidden: seq<nat>,
    l2Terms: seq<Var>)

  function Last<T>(s: seq<T>): T
    requires |s| > 0
  {
    s[|s| - 1]
  }

  /** The two calls of `forward`: the first on a store holding none of its
      variables, the second with outer reuse on the store the first left. */
  function BothPasses(cfg: NetConfig, batch: nat, maxLen: nat): Result<(Pass, Pass)>
  {
    var p1 :- Forward(cfg, map[], false, batch, maxLen);
    var p2 :- Forward(cfg, p1.store, true, batch, maxLen);
    Ok((p1, p2))
  }

  /** Both calls succeed exactly when the first can be built; the second
      then runs on the same variables, adds the same output variables to
      the accumulator, and yields as many score tensors. */
  lemma BothPassesFacts(cfg: NetConfig, batch: nat, maxLen: nat)
    ensures BothPasses(cfg, batch, maxLen).Ok? <==> StackProofs.Buildable(cfg)
    ensures BothPasses(cfg, batch, maxLen).Ok? ==>
      var (p1, p2) := BothPasses(cfg, batch, maxLen).value;
      && |cfg.layers| > 0
      && p1 == Forward(cfg, map[], false, batch, maxLen).value
      && PassSoFar(cfg, p1, cfg.repeats, false, batch, maxLen)
      && PassSoFar(cfg, p2, cfg.repeats, true, batch, maxLen)
      && p2.store == p1.store
      && p2.l2Terms == p1.l2Terms
  {
    StackProofs.FirstPassIff(cfg, batch, maxLen);
    if Forward(cfg, map[], false, batch, maxLen).Ok? {
      StackProofs.SecondPassReuses(cfg, map[], batch, maxLen, batch, maxLen);
    }
  }

  /** The constructor's graph for any setting: it keeps, of each call, the
      score tensor of the last repetition, and the first call's L2 terms.
      It succeeds exactly for a buildable configuration, and then both
      kept tensors come from repetition `repeats - 1`, with shape (batch,
      max_seq_len, num_classes). */
  function Construct(cfg: NetConfig, batch: nat, maxLen: nat): (r: Result<Model>)
    ensures r.Ok? <==> StackProofs.Buildable(cfg)
    ensures r.Ok? ==> r.value.scores == ScoreTensor(cfg.repeats - 1, [batch, maxLen, cfg.numClasses])
    ensures r.Ok? ==> r.value.noDropoutScores == ScoreTensor(cfg.repeats - 1, [batch, maxLen, cfg.numClasses])
    ensures r.Ok? ==> |r.value.l2Terms| == 2 * cfg.repeats
  {
    BothPassesFacts(cfg, batch, maxLen);
    var passes :- BothPasses(cfg, batch, maxLen);
    var (p1, p2) := passes;
    LastTensor(cfg, p1, false, batch, maxLen);
    LastTensor(cfg, p2, true, batch, maxLen);
    Ok(Model(p2.store, Last(p1.scores), Last(p2.scores), p1.hidden, p1.l2Terms))
  }

  lemma LastTensor(cfg: NetConfig, p: Pass, reuse: bool, batch: nat, maxLen: nat)
    requires |cfg.layers| > 0 && cfg.repeats > 0
    requires PassSoFar(cfg, p, cfg.repeats, reuse, batch, maxLen)
    ensures Last(p.scores) == ScoreTensor(cfg.repeats - 1, [batch, maxLen, cfg.numClasses])
    ensures |p.l2Terms| == 2 * cfg.repeats
  {
  }

  /** The source's settings: a single repetition in the shared scope
      "block", so a buildable layer list is all that is needed, and the
      accumulator receives that scope's output weight and bias once per
      call. */
  lemma SourcePasses(numTags: nat, charDim: nat, layers: seq<Layer>, batch: nat, maxLen: nat)
    ensures var cfg := SourceConfig(numTags, charDim, layers);
      BothPasses(cfg, batch, maxLen).Ok? <==>
        |layers| > 0 && DistinctNames(layers) && AllLayersOk(layers) && TakenCount(layers) > 0
    ensures var cfg := SourceConfig(numTags, charDim, layers);
      BothPasses(cfg, batch, maxLen).Ok? ==>
      var (p1, p2) := BothPasses(cfg, batch, maxLen).value;
      && |p1.scores| == 1 && |p2.scores| == 1
      && p1.scores[0] == ScoreTensor(0, [batch, maxLen, numTags])
      && p2.scores[0] == ScoreTensor(0, [batch, maxLen, numTags])
      && p1.hidden == [batch, maxLen, TakenWidth(layers)]
      && p1.l2Terms == [Var("block", "w_o"), Var("block", "b_o")]
      && p2.l2Terms == p1.l2Terms
      && |p2.store.Keys| == 2 * |layers| + 6
  {
    var cfg := SourceConfig(numTags, charDim, layers);
    BothPassesFacts(cfg, batch, maxLen);
    if BothPasses(cfg, batch, maxLen).Ok? {
      var (p1, p2) := BothPasses(cfg, batch, maxLen).value;
      SourceShapes(cfg, p1, p2, batch, maxLen);
      SourceCount(cfg, batch, maxLen);
    }
  }

  lemma SourceShapes(cfg: NetConfig, p1: Pass, p2: Pass, batch: nat, maxLen: nat)
    requires cfg == SourceConfig(cfg.numClasses, cfg.embeddingSize, cfg.layers) && |cfg.layers| > 0
    requires PassSoFar(cfg, p1, 1, false, batch, maxLen)
    requires PassSoFar(cfg, p2, 1, true, batch, maxLen)
    ensures |p1.scores| == 1 && |p2.scores| == 1
    ensures p1.scores[0] == ScoreTensor(0, [batch, maxLen, cfg.numClasses])
    ensures p2.scores[0] == ScoreTensor(0, [batch, maxLen, cfg.numClasses])
    ensures p1.l2Terms == [Var("block", "w_o"), Var("block", "b_o")]
  {
    StackProofs.SharedScopes(0, 0, false);
    assert BlockFacts(cfg, p1.blocks[0], 0, false, batch, maxLen);
  }

  lemma SourceCount(cfg: NetConfig, batch: nat, maxLen: nat)
    requires cfg == SourceConfig(cfg.numClasses, cfg.embeddingSize, cfg.layers)
    requires Forward(cfg, map[], false, batch, maxLen).Ok?
    ensures |Forward(cfg, map[], false, batch, maxLen).value.store.Keys| == 2 * |cfg.layers| + 6
  {
    StackProofs.ParameterCount(cfg, batch, maxLen);
  }

  /** The constructor's graph with `l2_loss` holding the output variables
      of the dropout call only. It is built exactly for a non-empty layer
      list with distinct names that make valid name scopes, non-negative
      widths, dilation rates of at least one and at least one taken layer.
      Both kept score tensors are then the single repetition's, of shape
      (batch, max_seq_len, num_tags), and the one shared repetition scope
      holds a weight and a bias per layer plus the projection and output
      pairs, next to the initial convolution's pair. */
  function Build(numTags: nat, charDim: nat, layers: seq<Layer>, batch: nat, maxLen: nat): (r: Result<Model>)
    ensures r.Ok? <==> |layers| > 0 && DistinctNames(layers) && AllLayersOk(layers) && TakenCount(layers) > 0
    ensures |layers| == 0 ==> r == Err(NoLayers)
    ensures r.Ok? ==> r.value.scores == ScoreTensor(0, [batch, maxLen, numTags])
    ensures r.Ok? ==> r.value.noDropoutScores == ScoreTensor(0, [batch, maxLen, numTags])
    ensures r.Ok? ==> r.value.hidden == [batch, maxLen, TakenWidth(layers)]
    ensures r.Ok? ==> r.value.l2Terms == [Var("block", "w_o"), Var("block", "b_o")]
    ensures r.Ok? ==> |r.value.params.Keys| == 2 * |layers| + 6
  {
    SourcePasses(numTags, charDim, layers, batch, maxLen);
    Construct(SourceConfig(numTags, charDim, layers), batch, maxLen)
  }

  /** The constructor as written: `l2_loss` is not reset before the
      dropout-free call, so it also collects that call's output
      variables. */
  function BuildAsWritten(numTags: nat, charDim: nat, layers: seq<Layer>, batch: nat, maxLen: nat): (r: Result<Model>)
    ensures r.Ok? <==> |layers| > 0 && DistinctNames(layers) && AllLayersOk(layers) && TakenCount(layers) > 0
    ensures r.Ok? ==>
      r.value.l2Terms == [Var("block", "w_o"), Var("block", "b_o"), Var("block", "w_o"), Var("block", "b_o")]
  {
    var passes := BothPasses(SourceConfig(numTags, charDim, layers), batch, maxLen);
    SourceAccumulated(numTags, charDim, layers, batch, maxLen);
    if passes.Err? then Err(passes.error)
    else
      var (p1, p2) := passes.value;
      Ok(Model(p2.store, Last(p1.scores), Last(p2.scores), p1.hidden, p1.l2Terms + p2.l2Terms))
  }

  lemma SourceAccumulated(numTags: nat, charDim: nat, layers: seq<Layer>, batch: nat, maxLen: nat)
    ensures var r := BothPasses(SourceConfig(numTags, charDim, layers), batch, maxLen);
      && (r.Ok? <==> |layers| > 0 && DistinctNames(layers) && AllLayersOk(layers) && TakenCount(layers) > 0)
      && (r.Ok? ==> r.value.0.l2Terms + r.value.1.l2Terms
                    == [Var("block", "w_o"), Var("block", "b_o"), Var("block", "w_o"), Var("block", "b_o")])
  {
    SourcePasses(numTags, charDim, layers, batch, maxLen);
  }

  /** The value of `l2_loss`: the squared norms (`tf.nn.l2_loss`) of the
      collected variables, added in order. The norm of each variable is a
      parameter; the tensors' values are not modelled. */
  function L2Loss(norm: Var -> real, terms: seq<Var>): (l: real)
    ensures |terms| == 0 ==> l == 0.0
    ensures (forall i :: 0 <= i < |terms| ==> norm(terms[i]) >= 0.0) ==> l >= 0.0
    ensures (forall i :: 0 <= i < |terms| ==> norm(terms[i]) >= 0.0) ==> forall i :: 0 <= i < |terms| ==> l >= norm(terms[i])
  {
    if |terms| == 0 then 0.0 else L2Loss(norm, terms[..|terms| - 1]) + norm(terms[|terms| - 1])
  }

  lemma {:induction false} L2LossAppend(norm: Var -> real, a: seq<Var>, b: seq<Var>)
    ensures L2Loss(norm, a + b) == L2Loss(norm, a) + L2Loss(norm, b)
    decreases |b|
  {
    if |b| == 0 {
      assert a + b == a;
    } else {
      assert (a + b)[..|a + b| - 1] == a + b[..|b| - 1];
      assert (a + b)[|a + b| - 1] == b[|b| - 1];
      L2LossAppend(norm, a, b[..|b| - 1]);
    }
  }

  /** `compute_loss`: the CRF term (the Viterbi flag is fixed on), plus the
      weighted L2 accumulator and the weighted squared difference between
      the scores with and without dropout. With both weights at their
      default of zero the loss is the CRF term alone, and non-negative
      weights and penalties never lower it. */
  function CompositeLoss(crfNll: real, l2Penalty: real, l2: real, dropPenalty: real, dropLoss: real): (loss: real)
    ensures l2Penalty == 0.0 && dropPenalty == 0.0 ==> loss == crfNll
    ensures l2Penalty >= 0.0 && l2 >= 0.0 && dropPenalty >= 0.0 && dropLoss >= 0.0 ==> loss >= crfNll
  {
    crfNll + l2Penalty * l2 + dropPenalty * dropLoss
  }

  /** With the accumulator holding the dropout call's terms only, the L2
      penalty counts the output weight and bias exactly once each. */
  lemma BuildCountsOutputOnce(numTags: nat, charDim: nat, layers: seq<Layer>, batch: nat, maxLen: nat, norm: Var -> real)
    requires Build(numTags, charDim, layers, batch, maxLen).Ok?
    ensures var m := Build(numTags, charDim, layers, batch, maxLen).value;
      && (forall v :: multiset(m.l2Terms)[v] == if v == Var("block", "w_o") || v == Var("block", "b_o") then 1 else 0)
      && L2Loss(norm, m.l2Terms) == norm(Var("block", "w_o")) + norm(Var("block", "b_o"))
  {
    OutputPair(norm, Var("block", "w_o"), Var("block", "b_o"));
  }

  lemma OutputPair(norm: Var -> real, x: Var, y: Var)
    requires x != y
    ensures forall v :: multiset([x, y])[v] == if v == x || v == y then 1 else 0
    ensures L2Loss(norm, [x, y]) == norm(x) + norm(y)
  {
    assert [x, y][..1] == [x];
    assert [x][..0] == [];
    assert L2Loss(norm, [x]) == norm(x);
  }

  /** As written, the constructor succeeds in the same cases but its
      accumulator holds every output variable twice, so the L2 penalty is
      twice the intended one. */
  lemma L2CountedTwice(numTags: nat, charDim: nat, layers: seq<Layer>, batch: nat, maxLen: nat, norm: Var -> real)
    ensures BuildAsWritten(numTags, charDim, layers, batch, maxLen).Ok? <==> Build(numTags, charDim, layers, batch, maxLen).Ok?
    ensures Build(numTags, charDim, layers, batch, maxLen).Ok? ==>
      var m := Build(numTags, charDim, layers, batch, maxLen).value;
      var w := BuildAsWritten(numTags, charDim, layers, batch, maxLen).value;
      && w == m.(l2Terms := m.l2Terms + m.l2Terms)
      && (forall v :: multiset(w.l2Terms)[v] == 2 * multiset(m.l2Terms)[v])
      && L2Loss(norm, w.l2Terms) == 2.0 * L2Loss(norm, m.l2Terms)
  {
    AsWrittenRepeatsTerms(numTags, charDim, layers, batch, maxLen);
    if Build(numTags, charDim, layers, batch, maxLen).Ok? {
      Doubled(norm, Build(numTags, charDim, layers, batch, maxLen).value.l2Terms);
    }
  }

  lemma AsWrittenRepeatsTerms(numTags: nat, charDim: nat, layers: seq<Layer>, batch: nat, maxLen: nat)
    ensures BuildAsWritten(numTags, charDim, layers, batch, maxLen).Ok? <==> Build(numTags, charDim, layers, batch, maxLen).Ok?
    ensures Build(numTags, charDim, layers, batch, maxLen).Ok? ==>
      var m := Build(numTags, charDim, layers, batch, maxLen).value;
      BuildAsWritten(numTags, charDim, layers, batch, maxLen).value == m.(l2Terms := m.l2Terms + m.l2Terms)
  {
    BothPassesFacts(SourceConfig(numTags, charDim, layers), batch, maxLen);
  }

  lemma Doubled(norm: Var -> real, terms: seq<Var>)
    ensures forall v :: multiset(terms + terms)[v] == 2 * multiset(terms)[v]
    ensures L2Loss(norm, terms + terms) == 2.0 * L2Loss(norm, terms)
  {
    L2LossAppend(norm, terms, terms);
  }

  /** A layer name with a space makes the name scope `atrous-conv-conv 1`
      invalid, so the constructor fails. */
  lemma InvalidNameExample()
    ensures !Build(3, 50, [Layer("conv 1", 1, 3, 8, "xavier", true)], 2, 4).Ok?
  {
    var layers := [Layer("conv 1", 1, 3, 8, "xavier", true)];
    assert !ScopeNameChar(layers[0].name[4]);
    assert !LayerOk(layers[0]);
  }

  /** One taken layer: the accumulator as written holds the output weight
      and bias twice each. */
  lemma L2DoubleCountExample()
    ensures var layers := [Layer("conv1", 1, 3, 8, "xavier", true)];
      && BuildAsWritten(4, 100, layers, 2, 5).Ok?
      && BuildAsWritten(4, 100, layers, 2, 5).value.l2Terms
         == [Var("block", "w_o"), Var("block", "b_o"), Var("block", "w_o"), Var("block", "b_o")]
      && Build(4, 100, layers, 2, 5).value.l2Terms == [Var("block", "w_o"), Var("block", "b_o")]
  {
    var layers := [Layer("conv1", 1, 3, 8, "xavier", true)];
    assert TakenFilters(layers) == [8] by {
      assert layers[1..] == [];
    }
    assert AllLayersOk(layers) by {
      assert LayerOk(layers[0]);
    }
    L2CountedTwice(4, 100, layers, 2, 5, _ => 0.0);
  }
}

=== FILE: numerals.dfy ===
/** Decimal rendering of repetition indices, as Python's `str` renders a
    non-negative integer. Unshared repetitions append it to their
    variable-scope name. */
module Numerals {

  predicate IsDigit(c: char)
  {
    '0' <= c <= '9'
  }

  predicate AllDigits(s: string)
  {
    forall i :: 0 <= i < |s| ==> IsDigit(s[i])
  }

  function DigitChar(d: nat): (c: char)
    requires d < 10
    ensures IsDigit(c)
  {
    ('0' as int + d) as char
  }

  function DigitValue(c: char): (d: nat)
    requires IsDigit(c)
    ensures d < 10
  {
    c as int - '0' as int
  }

  /** Decimal digits of `n`, most significant first, without leading zeros. */
  function ToDecimal(n: nat): (s: string)
    ensures |s| >= 1
    ensures AllDigits(s)
    ensures s[0] == '0' ==> n == 0
    decreases n
  {
    if n < 10 then [DigitChar(n)] else ToDecimal(n / 10) + [DigitChar(n % 10)]
  }

  /** Value of a string of decimal digits. */
  function ParseDecimal(s: string): nat
    requires AllDigits(s)
  {
    if |s| == 0 then 0
    else 10 * ParseDecimal(s[..|s| - 1]) + DigitValue(s[|s| - 1])
  }

  /** Reading the rendering back gives the number. */
  lemma {:induction false} ParseToDecimal(n: nat)
    ensures ParseDecimal(ToDecimal(n)) == n
    decreases n
  {
    var s := ToDecimal(n);
    if n < 10 {
      assert s[..0] == [];
    } else {
      assert s[..|s| - 1] == ToDecimal(n / 10);
      ParseToDecimal(n / 10);
    }
  }

  /** Distinct repetition indices render to distinct strings. */
  lemma ToDecimalInjective(a: nat, b: nat)
    ensures ToDecimal(a) == ToDecimal(b) <==> a == b
  {
    if ToDecimal(a) == ToDecimal(b) {
      ParseToDecimal(a);
      ParseToDecimal(b);
    }
  }
}

=== FILE: stack.dfy ===
/** The shape, channel and parameter-scope bookkeeping of `forward`, with
    every tensor replaced by its shape. The convolutions, dropout and dense
    layers themselves are not modelled; what is kept is which variables each
    step asks for (by scope, name and shape), how channel counts chain from
    layer to layer and from repetition to repetition, and which score
    tensors come out. */
module Stack {
  import opened Layers
  import opened Variables
  import Numerals

  /** A variable scope as `forward` opens it: its name and whether it
      reuses existing variables. */
  datatype Scope = Scope(name: string, reuse: bool)

  /** Scope of repetition `k`: one shared "block" scope reused from the
      second repetition on, or a distinct "block<k>" per repetition; an
      outer `reuse` forces reuse either way. */
  function BlockScope(k: nat, share: bool, outerReuse: bool): (s: Scope)
    ensures |s.name| >= 5 && s.name[..5] == "block"
    ensures share ==> s.name == "block"
    ensures !share ==> |s.name| > 5 && Numerals.AllDigits(s.name[5..]) && Numerals.ParseDecimal(s.name[5..]) == k
    ensures s.reuse <==> (share && k > 0) || outerReuse
  {
    var suffix := if share then "" else Numerals.ToDecimal(k);
    Numerals.ParseToDecimal(k);
    assert ("block" + suffix)[5..] == suffix;
    Scope("block" + suffix, (k != 0 && share) || outerReuse)
  }

  /** Input width of the output layer: the concatenated width brought down
      to `total / (2 * taken)` (rounded down) by the projection, or the
      concatenated width itself without projection. */
  function ProjWidth(total: nat, taken: nat, projection: bool): (w: nat)
    requires projection ==> taken > 0
    ensures projection ==> w * (2 * taken) <= total < (w + 1) * (2 * taken)
    ensures !projection ==> w == total
  {
    if projection then total / (2 * taken) else total
  }

  function WeightRequest(scope: string, layer: Layer, inDims: nat): Request
  {
    Request(Var(scope, layer.name + "_w"), Param([1, layer.width, inDims, layer.filters], WeightInit(layer.init)))
  }

  function BiasRequest(scope: string, layer: Layer): Request
  {
    Request(Var(scope, layer.name + "_b"), Param([layer.filters], BiasConst(LayerBias(layer.init))))
  }

  /** State of the loop over `layers_map` inside one repetition: the
      channel count of the running output, the channel counts of the
      taken outputs, their running total, and the variables asked for. */
  datatype LayerLoop = LayerLoop(lastDims: nat, hidden: seq<nat>, total: nat, requests: seq<Request>)

  function LayerStep(scope: string, st: LayerLoop, layer: Layer): LayerLoop
  {
    LayerLoop(
      layer.filters,
      if layer.take then st.hidden + [layer.filters] else st.hidden,
      if layer.take then st.total + layer.filters else st.total,
      st.requests + [WeightRequest(scope, layer, st.lastDims), BiasRequest(scope, layer)])
  }

  function RunLayers(scope: string, st: LayerLoop, layers: seq<Layer>): LayerLoop
    decreases |layers|
  {
    if |layers| == 0 then st else RunLayers(scope, LayerStep(scope, st, layers[0]), layers[1..])
  }

  function EnterBlock(scope: string, inDims: nat, layers: seq<Layer>): LayerLoop
  {
    RunLayers(scope, LayerLoop(inDims, [], 0, []), layers)
  }

  /** The loop's taken outputs are the taken layers' filters, and its
      running total is their width. */
  lemma {:induction false} RunLayersTaken(scope: string, st: LayerLoop, layers: seq<Layer>)
    ensures RunLayers(scope, st, layers).hidden == st.hidden + TakenFilters(layers)
    ensures RunLayers(scope, st, layers).total == st.total + TakenWidth(layers)
    decreases |layers|
  {
    if |layers| != 0 {
      var l0 := layers[0];
      var rest := layers[1..];
      RunLayersTaken(scope, LayerStep(scope, st, l0), rest);
      var pre := if l0.take then [l0.filters] else [];
      assert TakenFilters(layers) == pre + TakenFilters(rest);
      assert Total(pre + TakenFilters(rest)) == Total(pre) + Total(TakenFilters(rest)) by {
        if l0.take {
          assert (pre + TakenFilters(rest))[1..] == TakenFilters(rest);
        } else {
          assert pre + TakenFilters(rest) == TakenFilters(rest);
        }
      }
    }
  }

  /** Each layer's weight takes the previous layer's filters (the incoming
      width for the first layer) as input channels; earlier requests are
      kept. */
  lemma {:induction false} RunLayersRequests(scope: string, st: LayerLoop, layers: seq<Layer>)
    ensures var r := RunLayers(scope, st, layers);
      && |r.requests| == |st.requests| + 2 * |layers|
      && r.requests[..|st.requests|] == st.requests
      && (forall i :: 0 <= i < |layers| ==>
            r.requests[|st.requests| + 2 * i] == WeightRequest(scope, layers[i], InputChannels(layers, st.lastDims, i)))
      && (forall i :: 0 <= i < |layers| ==>
            r.requests[|st.requests| + 2 * i + 1] == BiasRequest(scope, layers[i]))
    decreases |layers|
  {
    if |layers| != 0 {
      var l0 := layers[0];
      var st' := LayerStep(scope, st, l0);
      var rest := layers[1..];
      RunLayersRequests(scope, st', rest);
      var r := RunLayers(scope, st', rest);
      var n := |st.requests|;
      assert r.requests[..n] == st.requests by {
        assert r.requests[..n + 2] == st'.requests;
        assert st'.requests[..n] == st.requests;
      }
      forall i | 0 <= i < |layers|
        ensures r.requests[n + 2 * i] == WeightRequest(scope, layers[i], InputChannels(layers, st.lastDims, i))
        ensures r.requests[n + 2 * i + 1] == BiasRequest(scope, layers[i])
      {
        if i == 0 {
          assert r.requests[..n + 2][n] == st'.requests[n];
          assert r.requests[..n + 2][n + 1] == st'.requests[n + 1];
        } else {
          assert rest[i - 1] == layers[i];
          assert InputChannels(rest, l0.filters, i - 1) == InputChannels(layers, st.lastDims, i);
          assert n + 2 * i == (n + 2) + 2 * (i - 1);
        }
      }
    }
  }

  /** Input-channel chain of one repetition: every request it makes for
      layer weights and biases, read from the start of the block. */
  lemma EnterBlockFacts(scope: string, inDims: nat, layers: seq<Layer>)
    ensures var r := EnterBlock(scope, inDims, layers);
      && r.hidden == TakenFilters(layers)
      && |r.hidden| == TakenCount(layers)
      && r.total == TakenWidth(layers)
      && |r.requests| == 2 * |layers|
      && (forall i :: 0 <= i < |layers| ==>
            r.requests[2 * i] == WeightRequest(scope, layers[i], InputChannels(layers, inDims, i)))
      && (forall i :: 0 <= i < |layers| ==>
            r.requests[2 * i + 1] == BiasRequest(scope, layers[i]))
  {
    RunLayersTaken(scope, LayerLoop(inDims, [], 0, []), layers);
    RunLayersRequests(scope, LayerLoop(inDims, [], 0, []), layers);
  }

  /** The initial convolution directly under `forward`: `embedding_size`
      input channels, the first layer's width and filters. */
  function Conv0Requests(cfg: NetConfig): (r: seq<Request>)
    requires |cfg.layers| > 0
    ensures |r| == 2 && Distinct(r)
    ensures forall i :: 0 <= i < |r| ==> r[i].v.scope == ""
    ensures |r[0].param.shape| == 4 && r[0].param.shape[1] == cfg.layers[0].width
    ensures r[0].param.shape[2] == cfg.embeddingSize
    ensures r[0].param.shape[3] == cfg.layers[0].filters && r[1].param.shape == [r[0].param.shape[3]]
  {
    var first := cfg.layers[0];
    [Request(Var("", "conv0_w"), Param([1, first.width, cfg.embeddingSize, first.filters], WeightInit("xavier"))),
     Request(Var("", "conv0_b"), Param([first.filters], BiasConst(0.01)))]
  }

  /** Projection variables (when projection is on) and output-layer
      variables of one repetition. The output weight reads the projected
      width `total / (2 * taken)` (rounded down) with projection, and the
      concatenated width `total` without. */
  function TailRequests(cfg: NetConfig, scope: string, total: nat, taken: nat): (r: seq<Request>)
    requires taken > 0
    ensures |r| == if cfg.projection then 4 else 2
    ensures r[|r| - 2]
      == Request(Var(scope, "w_o"), Param([ProjWidth(total, taken, cfg.projection), cfg.numClasses], WeightInit("xavier")))
    ensures r[|r| - 1] == Request(Var(scope, "b_o"), Param([cfg.numClasses], BiasConst(0.01)))
    ensures cfg.projection ==> var pw := r[2].param.shape[0];
      && pw * (2 * taken) <= total < (pw + 1) * (2 * taken)
      && r[0] == Request(Var(scope, "w_p"), Param([total, pw], WeightInit("xavier")))
      && r[1] == Request(Var(scope, "b_p"), Param([pw], BiasConst(0.01)))
    ensures !cfg.projection ==> r[0].param.shape == [total, cfg.numClasses]
  {
    var pw := ProjWidth(total, taken, cfg.projection);
    (if cfg.projection
     then [Request(Var(scope, "w_p"), Param([total, pw], WeightInit("xavier"))),
           Request(Var(scope, "b_p"), Param([pw], BiasConst(0.01)))]
     else [])
    + [Request(Var(scope, "w_o"), Param([pw, cfg.numClasses], WeightInit("xavier"))),
       Request(Var(scope, "b_o"), Param([cfg.numClasses], BiasConst(0.01)))]
  }

  /** Every variable a repetition in scope `scope`, entered with `inDims`
      channels, asks for, in order. */
  function BlockRequests(cfg: NetConfig, scope: string, inDims: nat): seq<Request>
  {
    var loop := EnterBlock(scope, inDims, cfg.layers);
    loop.requests + (if |loop.hidden| == 0 then [] else TailRequests(cfg, scope, loop.total, |loop.hidden|))
  }

  /** After the layer variables, a repetition with a taken layer asks for
      the projection pair (with projection on) and then the output pair,
      whose weight reads the width the projection leaves. */
  lemma OutputLayerRequests(cfg: NetConfig, scope: string, inDims: nat)
    requires TakenCount(cfg.layers) > 0
    ensures var reqs := BlockRequests(cfg, scope, inDims);
      var n := 2 * |cfg.layers|;
      var pw := ProjWidth(TakenWidth(cfg.layers), TakenCount(cfg.layers), cfg.projection);
      && |reqs| == n + (if cfg.projection then 4 else 2)
      && reqs[|reqs| - 2] == Request(Var(scope, "w_o"), Param([pw, cfg.numClasses], WeightInit("xavier")))
      && reqs[|reqs| - 1] == Request(Var(scope, "b_o"), Param([cfg.numClasses], BiasConst(0.01)))
      && (cfg.projection ==>
            reqs[n] == Request(Var(scope, "w_p"), Param([TakenWidth(cfg.layers), pw], WeightInit("xavier"))))
  {
    EnterBlockFacts(scope, inDims, cfg.layers);
  }

  /** A score tensor (`unflat_scores`) by the repetition that produced it
      and its shape. */
  datatype ScoreTensor = ScoreTensor(repetition: nat, shape: seq<nat>)

  /** What one repetition leaves behind: its scope, input and concatenated
      widths, number of taken layers, output-layer input width, the
      variables it asked for, its score tensor, and the two variables it
      adds to the L2 accumulator. */
  datatype BlockOut = BlockOut(
    scope: Scope,
    inDims: nat,
    outDims: nat,
    taken: nat,
    projWidth: nat,
    requests: seq<Request>,
    scores: ScoreTensor,
    l2Terms: seq<Var>)

  /** One repetition of the block loop. The layer loop stops at the first
      layer it cannot get through: before its weight when its name scope
      `atrous-conv-<name>` is not a valid scope name, at its weight when
      the weight shape has a negative width, or after its bias when its
      dilation rate is below one. */
  function RunBlock(cfg: NetConfig, store: Store, k: nat, inDims: nat, reuse: bool, batch: nat, maxLen: nat)
    : (r: Result<(BlockOut, Store)>)
    ensures r.Ok? ==> AllLayersOk(cfg.layers) && r.value.0.taken > 0
    ensures r.Ok? ==> r.value.0.scores == ScoreTensor(k, [batch, maxLen, cfg.numClasses])
    ensures r.Ok? ==> Extends(store, r.value.1)
  {
    var scope := BlockScope(k, cfg.shareRepeats, reuse);
    var loop := EnterBlock(scope.name, inDims, cfg.layers);
    var bad := FirstBadLayer(cfg.layers);
    if bad < |cfg.layers| then
      var layer := cfg.layers[bad];
      var early := !ValidScopeName(layer.name) || layer.width < 0;
      var done := if early then 2 * bad else 2 * bad + 2;
      EnterBlockFacts(scope.name, inDims, cfg.layers);
      var s0 :- GetVariables(store, loop.requests[..done], scope.reuse);
      var w := WeightRequest(scope.name, layer, InputChannels(cfg.layers, inDims, bad));
      if !ValidScopeName(layer.name) then Err(InvalidName(scope.name, "atrous-conv-" + layer.name))
      else if layer.width < 0 then Err(NegativeDimension(w.v, w.param.shape))
      else Err(BadDilation(scope.name, layer.name, layer.dilation))
    else
    var s1 :- GetVariables(store, loop.requests, scope.reuse);
    if |loop.hidden| == 0 then
      Err(NoTakenLayers)
    else
      var tail := TailRequests(cfg, scope.name, loop.total, |loop.hidden|);
      var s2 :- GetVariables(s1, tail, scope.reuse);
      var b := BlockOut(
        scope, inDims, loop.total, |loop.hidden|,
        ProjWidth(loop.total, |loop.hidden|, cfg.projection),
        loop.requests + tail,
        ScoreTensor(k, [batch, maxLen, cfg.numClasses]),
        [Var(scope.name, "w_o"), Var(scope.name, "b_o")]);
      Ok((b, s2))
  }

  /** A first layer whose name makes an invalid name scope stops the
      repetition at that name scope, before any layer variable is asked
      for. */
  lemma InvalidFirstName(cfg: NetConfig, store: Store, k: nat, inDims: nat, reuse: bool, batch: nat, maxLen: nat)
    requires |cfg.layers| > 0 && !ValidScopeName(cfg.layers[0].name)
    ensures RunBlock(cfg, store, k, inDims, reuse, batch, maxLen)
      == Err(InvalidName(BlockScope(k, cfg.shareRepeats, reuse).name, "atrous-conv-" + cfg.layers[0].name))
  {
    assert FirstBadLayer(cfg.layers) == 0;
    var loop := EnterBlock(BlockScope(k, cfg.shareRepeats, reuse).name, inDims, cfg.layers);
    assert loop.requests[..0] == [];
  }

  /** A repetition succeeds exactly when the layer loop gets through every
      layer, there is a taken layer, and its variables can be had in its
      scope (all present with matching shapes
      when reusing, all new when creating). On success its concatenated
      width is the taken layers' width, its score tensor has shape
      (batch, max_seq_len, num_classes), the store gains exactly its
      variables (or nothing when reusing), and it adds the output weight and
      bias to the L2 accumulator. */
  lemma RunBlockFacts(cfg: NetConfig, store: Store, k: nat, inDims: nat, reuse: bool, batch: nat, maxLen: nat)
    ensures var r := RunBlock(cfg, store, k, inDims, reuse, batch, maxLen);
      var scope := BlockScope(k, cfg.shareRepeats, reuse);
      var reqs := BlockRequests(cfg, scope.name, inDims);
      r.Ok? <==>
        && AllLayersOk(cfg.layers)
        && TakenCount(cfg.layers) > 0
        && (if scope.reuse then Satisfies(store, reqs) else Fresh(store, reqs))
    ensures var r := RunBlock(cfg, store, k, inDims, reuse, batch, maxLen);
      r.Ok? ==> var (b, s) := r.value;
      && b.scope == BlockScope(k, cfg.shareRepeats, reuse)
      && b.inDims == inDims
      && b.outDims == TakenWidth(cfg.layers)
      && b.taken == TakenCount(cfg.layers)
      && b.projWidth == ProjWidth(TakenWidth(cfg.layers), TakenCount(cfg.layers), cfg.projection)
      && b.requests == BlockRequests(cfg, b.scope.name, inDims)
      && b.scores == ScoreTensor(k, [batch, maxLen, cfg.numClasses])
      && b.l2Terms == [Var(b.scope.name, "w_o"), Var(b.scope.name, "b_o")]
      && Extends(store, s)
      && Satisfies(s, b.requests)
      && (b.scope.reuse ==> s == store)
      && (!b.scope.reuse ==> s.Keys == store.Keys + VarsOf(b.requests) && |s.Keys| == |store.Keys| + |b.requests|)
  {
    var r := RunBlock(cfg, store, k, inDims, reuse, batch, maxLen);
    var scope := BlockScope(k, cfg.shareRepeats, reuse);
    var loop := EnterBlock(scope.name, inDims, cfg.layers);
    EnterBlockFacts(scope.name, inDims, cfg.layers);
    var reqs := BlockRequests(cfg, scope.name, inDims);
    var first := GetVariables(store, loop.requests, scope.reuse);
    if FirstBadLayer(cfg.layers) < |cfg.layers| {
      assert !LayerOk(cfg.layers[FirstBadLayer(cfg.layers)]);
    } else if first.Err? {
      if scope.reuse {
        SatisfiesAppend(store, loop.requests, reqs[|loop.requests|..]);
        assert reqs == loop.requests + reqs[|loop.requests|..];
      } else if Fresh(store, reqs) {
        assert reqs == loop.requests + reqs[|loop.requests|..];
        FreshPrefix(store, loop.requests, reqs[|loop.requests|..]);
      }
    } else if |loop.hidden| == 0 {
      assert r.Err?;
    } else {
      var s1 := first.value;
      var tail := TailRequests(cfg, scope.name, loop.total, |loop.hidden|);
      assert reqs == loop.requests + tail;
      RunBlockStores(store, loop.requests, tail, scope.reuse, s1, GetVariables(s1, tail, scope.reuse));
    }
  }

  /** Channels entering repetition `k`: the initial convolution's filters
      for the first, the concatenated taken width afterwards. */
  function InDimsAt(cfg: NetConfig, k: nat): nat
    requires |cfg.layers| > 0
  {
    if k == 0 then cfg.layers[0].filters else TakenWidth(cfg.layers)
  }

  /** What repetition `k` of a successful pass looks like. */
  predicate BlockFacts(cfg: NetConfig, b: BlockOut, k: nat, reuse: bool, batch: nat, maxLen: nat)
    requires |cfg.layers| > 0
  {
    && b.scope == BlockScope(k, cfg.shareRepeats, reuse)
    && b.inDims == InDimsAt(cfg, k)
    && b.outDims == TakenWidth(cfg.layers)
    && b.taken == TakenCount(cfg.layers)
    && b.taken > 0
    && b.projWidth == ProjWidth(TakenWidth(cfg.layers), TakenCount(cfg.layers), cfg.projection)
    && b.requests == BlockRequests(cfg, b.scope.name, b.inDims)
    && b.scores == ScoreTensor(k, [batch, maxLen, cfg.numClasses])
    && AllLayersOk(cfg.layers)
  }

  /** Result of one call of `forward`: the list of per-repetition score
      tensors (`block_unflat_scores`), the shape of the last concatenated
      hidden state, the repetitions, the variables added to the L2
      accumulator, and the variable store afterwards. */
  datatype Pass = Pass(
    scores: seq<ScoreTensor>,
    hidden: seq<nat>,
    blocks: seq<BlockOut>,
    l2Terms: seq<Var>,
    store: Store)

  /** The first `k` repetitions have run as they should. */
  predicate PassSoFar(cfg: NetConfig, p: Pass, k: nat, reuse: bool, batch: nat, maxLen: nat)
    requires |cfg.layers| > 0
  {
    && |p.blocks| == k
    && |p.scores| == k
    && |p.l2Terms| == 2 * k
    && (forall j :: 0 <= j < k ==> BlockFacts(cfg, p.blocks[j], j, reuse, batch, maxLen))
    && (forall j :: 0 <= j < k ==> p.scores[j] == ScoreTensor(j, [batch, maxLen, cfg.numClasses]))
    && (forall j :: 0 <= j < k ==>
          p.l2Terms[2 * j] == Var(p.blocks[j].scope.name, "w_o") && p.l2Terms[2 * j + 1] == Var(p.blocks[j].scope.name, "b_o"))
    && (forall j :: 0 <= j < k ==> Satisfies(p.store, p.blocks[j].requests))
    && (k > 0 ==> p.hidden == [batch, maxLen, TakenWidth(cfg.layers)])
  }

  /** The repetitions from `k` on; `lastDims` is the channel count handed
      from one repetition to the next. */
  function RunBlocks(cfg: NetConfig, acc: Pass, k: nat, lastDims: nat, reuse: bool, batch: nat, maxLen: nat)
    : (r: Result<Pass>)
    requires |cfg.layers| > 0
    requires PassSoFar(cfg, acc, k, reuse, batch, maxLen)
    requires lastDims == InDimsAt(cfg, k)
    ensures r.Ok? ==> PassSoFar(cfg, r.value, if k < cfg.repeats then cfg.repeats else k, reuse, batch, maxLen)
    ensures r.Ok? ==> Extends(acc.store, r.value.store)
    decreases cfg.repeats - k
  {
    if k >= cfg.repeats then
      Ok(acc)
    else
      var bs :- RunBlock(cfg, acc.store, k, lastDims, reuse, batch, maxLen);
      var b := bs.0;
      var acc' := Pass(acc.scores + [b.scores], [batch, maxLen, b.outDims], acc.blocks + [b], acc.l2Terms + b.l2Terms, bs.1);
      RunBlockFacts(cfg, acc.store, k, lastDims, reuse, batch, maxLen);
      PassStep(cfg, acc, b, bs.1, acc', k, reuse, batch, maxLen);
      var r := RunBlocks(cfg, acc', k + 1, b.outDims, reuse, batch, maxLen);
      ExtendsTransitive(acc.store, bs.1, r);
      r
  }

  lemma ExtendsTransitive(s0: Store, s1: Store, r: Result<Pass>)
    requires Extends(s0, s1)
    requires r.Ok? ==> Extends(s1, r.value.store)
    ensures r.Ok? ==> Extends(s0, r.value.store)
  {
  }

  lemma PassStep(cfg: NetConfig, acc: Pass, b: BlockOut, s: Store, acc': Pass, k: nat, reuse: bool, batch: nat, maxLen: nat)
    requires |cfg.layers| > 0
    requires PassSoFar(cfg, acc, k, reuse, batch, maxLen)
    requires BlockFacts(cfg, b, k, reuse, batch, maxLen)
    requires b.l2Terms == [Var(b.scope.name, "w_o"), Var(b.scope.name, "b_o")]
    requires Extends(acc.store, s) && Satisfies(s, b.requests)
    requires acc' == Pass(acc.scores + [b.scores], [batch, maxLen, b.outDims], acc.blocks + [b], acc.l2Terms + b.l2Terms, s)
    ensures PassSoFar(cfg, acc', k + 1, reuse, batch, maxLen)
  {
    StoresKept(acc.store, s, acc.blocks, b);
    TermsKept(acc.blocks, acc.l2Terms, b);
  }

  /** Requests met before a repetition stay met after it. */
  lemma StoresKept(store: Store, s: Store, blocks: seq<BlockOut>, b: BlockOut)
    requires Extends(store, s) && Satisfies(s, b.requests)
    requires forall j :: 0 <= j < |blocks| ==> Satisfies(store, blocks[j].requests)
    ensures forall j :: 0 <= j < |blocks| + 1 ==> Satisfies(s, (blocks + [b])[j].requests)
  {
    forall j | 0 <= j < |blocks| + 1
      ensures Satisfies(s, (blocks + [b])[j].requests)
    {
      if j < |blocks| {
        assert (blocks + [b])[j] == blocks[j];
        ExtendsKeepsSatisfies(store, s, blocks[j].requests);
      } else {
        assert (blocks + [b])[j] == b;
      }
    }
  }

  /** The accumulator keeps one `w_o`, `b_o` pair per repetition, in
      repetition order. */
  lemma TermsKept(blocks: seq<BlockOut>, terms: seq<Var>, b: BlockOut)
    requires |terms| == 2 * |blocks|
    requires forall j :: 0 <= j < |blocks| ==>
      terms[2 * j] == Var(blocks[j].scope.name, "w_o") && terms[2 * j + 1] == Var(blocks[j].scope.name, "b_o")
    requires b.l2Terms == [Var(b.scope.name, "w_o"), Var(b.scope.name, "b_o")]
    ensures forall j :: 0 <= j < |blocks| + 1 ==>
      (terms + b.l2Terms)[2 * j] == Var((blocks + [b])[j].scope.name, "w_o")
      && (terms + b.l2Terms)[2 * j + 1] == Var((blocks + [b])[j].scope.name, "b_o")
  {
    var bs := blocks + [b];
    var ts := terms + b.l2Terms;
    forall j | 0 <= j < |blocks| + 1
      ensures ts[2 * j] == Var(bs[j].scope.name, "w_o") && ts[2 * j + 1] == Var(bs[j].scope.name, "b_o")
    {
      if j < |blocks| {
        assert bs[j] == blocks[j];
        assert ts[2 * j] == terms[2 * j];
        assert ts[2 * j + 1] == terms[2 * j + 1];
      } else {
        assert bs[j] == b;
        assert ts[2 * j] == b.l2Terms[0];
        assert ts[2 * j + 1] == b.l2Terms[1];
      }
    }
  }

  /** One call of `forward`: the initial convolution directly under the
      `forward` scope, then `repeats` repetitions of the block. */
  function Forward(cfg: NetConfig, store: Store, reuse: bool, batch: nat, maxLen: nat): (r: Result<Pass>)
    ensures |cfg.layers| == 0 ==> r == Err(NoLayers)
    ensures |cfg.layers| > 0 && cfg.layers[0].width < 0 ==> r.Err? && r.error.NegativeDimension?
    ensures r.Ok? ==> |cfg.layers| > 0 && cfg.repeats > 0 && TakenCount(cfg.layers) > 0 && AllLayersOk(cfg.layers)
    ensures r.Ok? ==> PassSoFar(cfg, r.value, cfg.repeats, reuse, batch, maxLen)
    ensures r.Ok? ==> |r.value.scores| == cfg.repeats
    ensures r.Ok? ==> forall j :: 0 <= j < |r.value.scores| ==>
      r.value.scores[j] == ScoreTensor(j, [batch, maxLen, cfg.numClasses])
    ensures r.Ok? ==> r.value.hidden == [batch, maxLen, TakenWidth(cfg.layers)]
    ensures r.Ok? ==> Extends(store, r.value.store) && Satisfies(r.value.store, Conv0Requests(cfg))
  {
    if |cfg.layers| == 0 then
      Err(NoLayers)
    else if cfg.layers[0].width < 0 then
      var w := Conv0Requests(cfg)[0];
      Err(NegativeDimension(w.v, w.param.shape))
    else
      var s1 :- GetVariables(store, Conv0Requests(cfg), reuse);
      var p :- RunBlocks(cfg, Pass([], [], [], [], s1), 0, cfg.layers[0].filters, reuse, batch, maxLen);
      if cfg.repeats == 0 then
        Err(NoRepetitions)
      else
        ForwardFacts(cfg, store, s1, p, reuse, batch, maxLen);
        Ok(p)
  }

  lemma ForwardFacts(cfg: NetConfig, store: Store, s1: Store, p: Pass, reuse: bool, batch: nat, maxLen: nat)
    requires |cfg.layers| > 0 && cfg.repeats > 0
    requires Extends(store, s1) && Satisfies(s1, Conv0Requests(cfg))
    requires PassSoFar(cfg, p, cfg.repeats, reuse, batch, maxLen)
    requires Extends(s1, p.store)
    ensures TakenCount(cfg.layers) > 0 && AllLayersOk(cfg.layers)
    ensures Extends(store, p.store) && Satisfies(p.store, Conv0Requests(cfg))
  {
    assert BlockFacts(cfg, p.blocks[0], 0, reuse, batch, maxLen);
    ExtendsKeepsSatisfies(s1, p.store, Conv0Requests(cfg));
  }

  /** Store bookkeeping of a repetition: asking for the layer variables and
      then for the tail is asking for all of them. */
  lemma RunBlockStores(store: Store, a: seq<Request>, tail: seq<Request>, reuse: bool, s1: Store, r: Result<Store>)
    requires GetVariables(store, a, reuse) == Ok(s1)
    requires r == GetVariables(s1, tail, reuse)
    ensures r.Ok? <==> (if reuse then Satisfies(store, a + tail) else Fresh(store, a + tail))
    ensures r.Ok? ==> Extends(store, r.value) && Satisfies(r.value, a + tail)
    ensures r.Ok? && reuse ==> r.value == store
    ensures r.Ok? && !reuse ==> r.value.Keys == store.Keys + VarsOf(a + tail)
    ensures r.Ok? && !reuse ==> |r.value.Keys| == |store.Keys| + |a + tail|
  {
    if reuse {
      ReuseBoth(store, a, tail, s1, r);
    } else {
      CreateBoth(store, a, tail, s1, r);
    }
    if r.Ok? {
      ExtendsKeepsSatisfies(s1, r.value, a);
      SatisfiesAppend(r.value, a, tail);
    }
  }

  lemma ReuseBoth(store: Store, a: seq<Request>, tail: seq<Request>, s1: Store, r: Result<Store>)
    requires GetVariables(store, a, true) == Ok(s1)
    requires r == GetVariables(s1, tail, true)
    ensures r.Ok? <==> Satisfies(store, a + tail)
    ensures r.Ok? ==> r.value == store
  {
    SatisfiesAppend(store, a, tail);
  }

  lemma CreateBoth(store: Store, a: seq<Request>, tail: seq<Request>, s1: Store, r: Result<Store>)
    requires GetVariables(store, a, false) == Ok(s1)
    requires r == GetVariables(s1, tail, false)
    ensures r.Ok? <==> Fresh(store, a + tail)
    ensures r.Ok? ==> r.value.Keys == store.Keys + VarsOf(a + tail)
    ensures r.Ok? ==> |r.value.Keys| == |store.Keys| + |a + tail|
  {
    FreshAppend(store, a, tail, s1);
    if r.Ok? {
      VarsOfAppend(a, tail);
      KeysChain(store.Keys, VarsOf(a), s1.Keys, VarsOf(tail), r.value.Keys, VarsOf(a + tail));
    }
  }
}

=== FILE: stack_proofs.dfy ===
/** Properties of the forward bookkeeping that relate several calls or
    several repetitions: scope ownership, the second (dropout-free) pass
    reusing every variable of the first, exactly when the first pass can
    be built, and how many variables it creates. */
module StackProofs {
  import opened Layers
  import opened Variables
  import opened Stack
  import Numerals

  /** With `share_repeats` every repetition uses the one "block" scope, and
      all repetitions after the first reuse its variables; an outer `reuse`
      makes every repetition reuse. */
  lemma SharedScopes(j: nat, k: nat, outerReuse: bool)
    ensures BlockScope(j, true, outerReuse).name == BlockScope(k, true, outerReuse).name == "block"
    ensures BlockScope(k, true, outerReuse).reuse <==> k > 0 || outerReuse
  {
    assert "block" + "" == "block";
  }

  /** Without sharing, different repetitions get different scope names, and
      each reuses exactly when the whole call does. */
  lemma UnsharedScopes(j: nat, k: nat, outerReuse: bool)
    ensures BlockScope(j, false, outerReuse).name == BlockScope(k, false, outerReuse).name <==> j == k
    ensures BlockScope(k, false, outerReuse).reuse == outerReuse
  {
    var a := Numerals.ToDecimal(j);
    var b := Numerals.ToDecimal(k);
    if "block" + a == "block" + b {
      assert a == ("block" + a)[5..];
      assert b == ("block" + b)[5..];
      Numerals.ToDecimalInjective(j, k);
    }
  }

  /** A scope name of an unshared repetition with index below `k`. */
  predicate ScopeBelow(name: string, k: nat)
  {
    |name| >= 5 && Numerals.AllDigits(name[5..]) && Numerals.ParseDecimal(name[5..]) < k
  }

  lemma UnsharedScopeIndex(k: nat, reuse: bool)
    ensures var name := BlockScope(k, false, reuse).name;
      |name| > 5 && name[5..] == Numerals.ToDecimal(k) && Numerals.ParseDecimal(name[5..]) == k
  {
    Numerals.ParseToDecimal(k);
  }

  lemma SuffixCancel(a: string, b: string, suffix: string)
    requires a + suffix == b + suffix
    ensures a == b
  {
    assert a == (a + suffix)[..|a|];
    assert b == (b + suffix)[..|b|];
  }

  function LayerSuffix(i: nat): string
  {
    if i % 2 == 0 then "_w" else "_b"
  }

  /** Request `i` of a repetition's layer loop is the weight (even `i`) or
      bias (odd `i`) of layer `i / 2`. */
  lemma LayerRequestVar(scope: string, inDims: nat, layers: seq<Layer>, i: nat)
    requires i < 2 * |layers|
    ensures |EnterBlock(scope, inDims, layers).requests| == 2 * |layers|
    ensures EnterBlock(scope, inDims, layers).requests[i].v == Var(scope, layers[i / 2].name + LayerSuffix(i))
  {
    EnterBlockFacts(scope, inDims, layers);
    var h := i / 2;
    if i % 2 == 0 {
      assert i == 2 * h;
    } else {
      assert i == 2 * h + 1;
    }
  }

  /** Every variable a repetition asks for lives in that repetition's scope. */
  lemma BlockRequestsInScope(cfg: NetConfig, scope: string, inDims: nat)
    ensures forall q :: q in BlockRequests(cfg, scope, inDims) ==> q.v.scope == scope
  {
    var loop := EnterBlock(scope, inDims, cfg.layers);
    EnterBlockFacts(scope, inDims, cfg.layers);
    forall q | q in BlockRequests(cfg, scope, inDims)
      ensures q.v.scope == scope
    {
      if q in loop.requests {
        var i :| 0 <= i < |loop.requests| && loop.requests[i] == q;
        LayerRequestVar(scope, inDims, cfg.layers, i);
      }
    }
  }

  /** Two layer-loop requests for the same variable are the same request. */
  lemma LayerRequestsInjective(scope: string, inDims: nat, layers: seq<Layer>, i: nat, j: nat)
    requires DistinctNames(layers)
    requires i < |EnterBlock(scope, inDims, layers).requests| && j < |EnterBlock(scope, inDims, layers).requests|
    requires EnterBlock(scope, inDims, layers).requests[i].v == EnterBlock(scope, inDims, layers).requests[j].v
    ensures i == j
  {
    EnterBlockFacts(scope, inDims, layers);
    LayerRequestVar(scope, inDims, layers, i);
    LayerRequestVar(scope, inDims, layers, j);
    var si, sj := LayerSuffix(i), LayerSuffix(j);
    var li, lj := layers[i / 2].name + si, layers[j / 2].name + sj;
    assert li == lj;
    assert li[|li| - 1] == si[1] && lj[|lj| - 1] == sj[1];
    assert i % 2 == j % 2;
    SuffixCancel(layers[i / 2].name, layers[j / 2].name, si);
    assert i / 2 == j / 2;
  }

  /** Layer variables end in "_w" or "_b"; projection and output variables
      do not. */
  lemma LayerRequestNotTail(cfg: NetConfig, scope: string, inDims: nat, i: nat, q: Request)
    requires i < |EnterBlock(scope, inDims, cfg.layers).requests|
    requires TakenCount(cfg.layers) > 0
    requires q in TailRequests(cfg, scope, TakenWidth(cfg.layers), TakenCount(cfg.layers))
    ensures EnterBlock(scope, inDims, cfg.layers).requests[i].v != q.v
  {
    EnterBlockFacts(scope, inDims, cfg.layers);
    LayerRequestVar(scope, inDims, cfg.layers, i);
    var li := cfg.layers[i / 2].name + LayerSuffix(i);
    assert li[|li| - 1] in {'w', 'b'};
    assert q.v.local[|q.v.local| - 1] in {'p', 'o'};
  }

  /** With distinct layer names, a repetition never asks for the same
      variable twice. */
  lemma BlockRequestsDistinct(cfg: NetConfig, scope: string, inDims: nat)
    requires DistinctNames(cfg.layers)
    ensures Distinct(BlockRequests(cfg, scope, inDims))
  {
    var loop := EnterBlock(scope, inDims, cfg.layers);
    EnterBlockFacts(scope, inDims, cfg.layers);
    var reqs := BlockRequests(cfg, scope, inDims);
    var n := |loop.requests|;
    forall i, j | 0 <= i < j < |reqs|
      ensures reqs[i].v != reqs[j].v
    {
      if j < n {
        assert reqs[i] == loop.requests[i] && reqs[j] == loop.requests[j];
        if reqs[i].v == reqs[j].v {
          LayerRequestsInjective(scope, inDims, cfg.layers, i, j);
        }
      } else if i < n {
        assert reqs[i] == loop.requests[i];
        assert reqs[j] in TailRequests(cfg, scope, TakenWidth(cfg.layers), TakenCount(cfg.layers));
        LayerRequestNotTail(cfg, scope, inDims, i, reqs[j]);
      }
    }
  }

  /** A repetition whose scope no stored variable uses can create all of
      its variables. */
  lemma BlockRequestsFresh(cfg: NetConfig, store: Store, scope: string, inDims: nat)
    requires DistinctNames(cfg.layers)
    requires forall v :: v in store ==> v.scope != scope
    ensures Fresh(store, BlockRequests(cfg, scope, inDims))
  {
    BlockRequestsDistinct(cfg, scope, inDims);
    BlockRequestsInScope(cfg, scope, inDims);
  }

  /** Repetitions from `k` on, in a call with outer reuse, over a store
      that already holds every variable they ask for: they all succeed and
      leave the store as it was. */
  lemma {:induction false} ReusePassFrom(cfg: NetConfig, store: Store, acc: Pass, k: nat, batch: nat, maxLen: nat)
    requires |cfg.layers| > 0
    requires TakenCount(cfg.layers) > 0 && AllLayersOk(cfg.layers)
    requires k <= cfg.repeats
    requires PassSoFar(cfg, acc, k, true, batch, maxLen)
    requires acc.store == store
    requires forall j :: k <= j < cfg.repeats ==>
      Satisfies(store, BlockRequests(cfg, BlockScope(j, cfg.shareRepeats, false).name, InDimsAt(cfg, j)))
    ensures RunBlocks(cfg, acc, k, InDimsAt(cfg, k), true, batch, maxLen).Ok?
    ensures RunBlocks(cfg, acc, k, InDimsAt(cfg, k), true, batch, maxLen).value.store == store
    decreases cfg.repeats - k
  {
    if k < cfg.repeats {
      RunBlockFacts(cfg, store, k, InDimsAt(cfg, k), true, batch, maxLen);
      var bs := RunBlock(cfg, store, k, InDimsAt(cfg, k), true, batch, maxLen).value;
      var b := bs.0;
      var acc' := Pass(acc.scores + [b.scores], [batch, maxLen, b.outDims], acc.blocks + [b], acc.l2Terms + b.l2Terms, bs.1);
      PassStep(cfg, acc, b, bs.1, acc', k, true, batch, maxLen);
      ReusePassFrom(cfg, store, acc', k + 1, batch, maxLen);
    }
  }

  /** The constructor's second, dropout-free call of `forward` (outer reuse
      on) after a successful first call: it succeeds, creates no variable,
      so both calls run on the same parameters, and it adds the same
      output variables to the L2 accumulator as the first. */
  lemma SecondPassReuses(cfg: NetConfig, s0: Store, batch: nat, maxLen: nat, batch2: nat, maxLen2: nat)
    requires Forward(cfg, s0, false, batch, maxLen).Ok?
    ensures var p1 := Forward(cfg, s0, false, batch, maxLen).value;
      var r2 := Forward(cfg, p1.store, true, batch2, maxLen2);
      && r2.Ok?
      && r2.value.store == p1.store
      && r2.value.l2Terms == p1.l2Terms
      && |r2.value.scores| == |p1.scores|
  {
    var p1 := Forward(cfg, s0, false, batch, maxLen).value;
    var store := p1.store;
    FirstPassStored(cfg, p1, batch, maxLen);
    var acc := Pass([], [], [], [], store);
    ReusePassFrom(cfg, store, acc, 0, batch2, maxLen2);
    var r2 := Forward(cfg, store, true, batch2, maxLen2);
    assert GetVariables(store, Conv0Requests(cfg), true) == Ok(store);
    assert r2 == RunBlocks(cfg, acc, 0, InDimsAt(cfg, 0), true, batch2, maxLen2);
    SameL2Terms(cfg, p1, r2.value, batch, maxLen, batch2, maxLen2);
  }

  lemma FirstPassStored(cfg: NetConfig, p1: Pass, batch: nat, maxLen: nat)
    requires |cfg.layers| > 0
    requires PassSoFar(cfg, p1, cfg.repeats, false, batch, maxLen)
    ensures forall j :: 0 <= j < cfg.repeats ==>
      Satisfies(p1.store, BlockRequests(cfg, BlockScope(j, cfg.shareRepeats, false).name, InDimsAt(cfg, j)))
  {
    forall j | 0 <= j < cfg.repeats
      ensures Satisfies(p1.store, BlockRequests(cfg, BlockScope(j, cfg.shareRepeats, false).name, InDimsAt(cfg, j)))
    {
      assert BlockFacts(cfg, p1.blocks[j], j, false, batch, maxLen);
    }
  }

  /** Repetition scope names do not depend on the outer reuse flag, so two
      passes add the same variables to the L2 accumulator. */
  lemma SameL2Terms(cfg: NetConfig, p1: Pass, p2: Pass, batch: nat, maxLen: nat, batch2: nat, maxLen2: nat)
    requires |cfg.layers| > 0
    requires PassSoFar(cfg, p1, cfg.repeats, false, batch, maxLen)
    requires PassSoFar(cfg, p2, cfg.repeats, true, batch2, maxLen2)
    ensures p1.l2Terms == p2.l2Terms
  {
    forall i | 0 <= i < |p1.l2Terms|
      ensures p2.l2Terms[i] == p1.l2Terms[i]
    {
      var j := i / 2;
      assert BlockFacts(cfg, p1.blocks[j], j, false, batch, maxLen);
      assert BlockFacts(cfg, p2.blocks[j], j, true, batch2, maxLen2);
      assert p1.blocks[j].scope.name == p2.blocks[j].scope.name;
      if i % 2 == 0 {
        assert i == 2 * j;
      } else {
        assert i == 2 * j + 1;
      }
    }
  }

  /** When the first call of `forward` (on a store holding none of its
      variables) can be built: a non-empty layer list with distinct names
      and at least one taken layer, at least one repetition, and, when
      several repetitions share one scope, a concatenated width equal to
      the first layer's filters (the shared first-layer weight is asked for
      with both as input channels). */
  predicate Buildable(cfg: NetConfig)
  {
    && |cfg.layers| > 0
    && DistinctNames(cfg.layers)
    && AllLayersOk(cfg.layers)
    && TakenCount(cfg.layers) > 0
    && cfg.repeats > 0
    && (cfg.shareRepeats && cfg.repeats > 1 ==> TakenWidth(cfg.layers) == cfg.layers[0].filters)
  }

  /** A repetition that asks for no variable twice has distinct layer names. */
  lemma NamesFromDistinct(cfg: NetConfig, scope: string, inDims: nat)
    requires Distinct(BlockRequests(cfg, scope, inDims))
    ensures DistinctNames(cfg.layers)
  {
    var loop := EnterBlock(scope, inDims, cfg.layers);
    EnterBlockFacts(scope, inDims, cfg.layers);
    var reqs := BlockRequests(cfg, scope, inDims);
    forall i, j | 0 <= i < j < |cfg.layers|
      ensures cfg.layers[i].name != cfg.layers[j].name
    {
      assert reqs[2 * i] == loop.requests[2 * i];
      assert reqs[2 * j] == loop.requests[2 * j];
      assert reqs[2 * i].v != reqs[2 * j].v;
    }
  }

  /** The first weight a repetition asks for is the first layer's, with the
      repetition's input width as input channels. */
  lemma FirstWeightRequest(cfg: NetConfig, scope: string, inDims: nat)
    requires |cfg.layers| > 0
    ensures |BlockRequests(cfg, scope, inDims)| > 0
    ensures BlockRequests(cfg, scope, inDims)[0] == WeightRequest(scope, cfg.layers[0], inDims)
  {
    EnterBlockFacts(scope, inDims, cfg.layers);
  }

  /** When two repetitions share one scope, the second asks for the first
      layer's weight again with the concatenated width as input channels;
      both requests are met by the same stored variable. */
  lemma SharedWidthAgrees(cfg: NetConfig, p: Pass, batch: nat, maxLen: nat)
    requires |cfg.layers| > 0 && cfg.shareRepeats && cfg.repeats > 1
    requires PassSoFar(cfg, p, cfg.repeats, false, batch, maxLen)
    ensures TakenWidth(cfg.layers) == cfg.layers[0].filters
  {
    var b0, b1 := p.blocks[0], p.blocks[1];
    assert BlockFacts(cfg, b0, 0, false, batch, maxLen);
    assert BlockFacts(cfg, b1, 1, false, batch, maxLen);
    assert Satisfies(p.store, b0.requests) && Satisfies(p.store, b1.requests);
    SharedScopes(0, 1, false);
    assert b0.scope.name == "block" && b1.scope.name == "block";
    assert b0.inDims == cfg.layers[0].filters && b1.inDims == TakenWidth(cfg.layers);
    FirstWeightRequest(cfg, "block", cfg.layers[0].filters);
    FirstWeightRequest(cfg, "block", TakenWidth(cfg.layers));
    assert b0.requests[0] in b0.requests && b1.requests[0] in b1.requests;
    assert Present(p.store, b0.requests[0]) && Present(p.store, b1.requests[0]);
    assert b0.requests[0].param.shape[2] == b1.requests[0].param.shape[2];
  }

  /** A successful first call ran its first repetition on the store left
      by the initial convolution. */
  lemma FirstBlockRan(cfg: NetConfig, batch: nat, maxLen: nat)
    requires Forward(cfg, map[], false, batch, maxLen).Ok?
    ensures |cfg.layers| > 0 && GetVariables(map[], Conv0Requests(cfg), false).Ok?
    ensures RunBlock(cfg, GetVariables(map[], Conv0Requests(cfg), false).value, 0,
                     cfg.layers[0].filters, false, batch, maxLen).Ok?
  {
  }

  /** A successful first call is built from a buildable configuration. */
  lemma FirstPassBuildable(cfg: NetConfig, batch: nat, maxLen: nat)
    requires Forward(cfg, map[], false, batch, maxLen).Ok?
    ensures Buildable(cfg)
  {
    FirstBlockRan(cfg, batch, maxLen);
    var s1 := GetVariables(map[], Conv0Requests(cfg), false).value;
    var f0 := cfg.layers[0].filters;
    RunBlockFacts(cfg, s1, 0, f0, false, batch, maxLen);
    NamesFromDistinct(cfg, BlockScope(0, cfg.shareRepeats, false).name, f0);
    if cfg.shareRepeats && cfg.repeats > 1 {
      SharedWidthAgrees(cfg, Forward(cfg, map[], false, batch, maxLen).value, batch, maxLen);
    }
  }

  /** The store holds only variables of the initial convolution and of
      unshared repetitions before `k`. */
  predicate OnlyEarlierScopes(store: Store, k: nat)
  {
    forall v :: v in store ==> v.scope == "" || ScopeBelow(v.scope, k)
  }

  lemma ScopeUnused(store: Store, k: nat)
    requires OnlyEarlierScopes(store, k)
    ensures forall v :: v in store ==> v.scope != BlockScope(k, false, false).name
  {
    UnsharedScopeIndex(k, false);
  }

  lemma ScopesGrow(store: Store, s: Store, reqs: seq<Request>, k: nat)
    requires OnlyEarlierScopes(store, k)
    requires s.Keys == store.Keys + VarsOf(reqs)
    requires forall q :: q in reqs ==> q.v.scope == BlockScope(k, false, false).name
    ensures OnlyEarlierScopes(s, k + 1)
  {
    UnsharedScopeIndex(k, false);
    forall v | v in s
      ensures v.scope == "" || ScopeBelow(v.scope, k + 1)
    {
      if v !in store {
        var q :| q in reqs && q.v == v;
      }
    }
  }

  /** Repetitions from `k` on in a first call of a buildable configuration
      all succeed. */
  lemma {:induction false} CreatePassFrom(cfg: NetConfig, acc: Pass, k: nat, batch: nat, maxLen: nat)
    requires Buildable(cfg)
    requires k <= cfg.repeats
    requires PassSoFar(cfg, acc, k, false, batch, maxLen)
    requires !cfg.shareRepeats ==> OnlyEarlierScopes(acc.store, k)
    requires cfg.shareRepeats && k == 0 ==> forall v :: v in acc.store ==> v.scope == ""
    ensures RunBlocks(cfg, acc, k, InDimsAt(cfg, k), false, batch, maxLen).Ok?
    decreases cfg.repeats - k
  {
    if k < cfg.repeats {
      var inDims := InDimsAt(cfg, k);
      var scope := BlockScope(k, cfg.shareRepeats, false);
      var reqs := BlockRequests(cfg, scope.name, inDims);
      BlockRequestsInScope(cfg, scope.name, inDims);
      if scope.reuse {
        assert BlockFacts(cfg, acc.blocks[0], 0, false, batch, maxLen);
        assert reqs == acc.blocks[0].requests;
      } else if cfg.shareRepeats {
        BlockRequestsFresh(cfg, acc.store, scope.name, inDims);
      } else {
        ScopeUnused(acc.store, k);
        BlockRequestsFresh(cfg, acc.store, scope.name, inDims);
      }
      RunBlockFacts(cfg, acc.store, k, inDims, false, batch, maxLen);
      var bs := RunBlock(cfg, acc.store, k, inDims, false, batch, maxLen).value;
      var b := bs.0;
      var acc' := Pass(acc.scores + [b.scores], [batch, maxLen, b.outDims], acc.blocks + [b], acc.l2Terms + b.l2Terms, bs.1);
      PassStep(cfg, acc, b, bs.1, acc', k, false, batch, maxLen);
      if !cfg.shareRepeats {
        ScopesGrow(acc.store, bs.1, reqs, k);
      }
      CreatePassFrom(cfg, acc', k + 1, batch, maxLen);
    }
  }

  /** A buildable configuration's first call succeeds. */
  lemma FirstPassBuilds(cfg: NetConfig, batch: nat, maxLen: nat)
    requires Buildable(cfg)
    ensures Forward(cfg, map[], false, batch, maxLen).Ok?
  {
    var conv0 := Conv0Requests(cfg);
    assert Fresh(map[], conv0);
    var s1 := GetVariables(map[], conv0, false).value;
    assert forall v :: v in s1 ==> v.scope == "" by {
      forall v | v in s1
        ensures v.scope == ""
      {
        var q :| q in conv0 && q.v == v;
      }
    }
    var acc := Pass([], [], [], [], s1);
    CreatePassFrom(cfg, acc, 0, batch, maxLen);
  }

  /** The first call of `forward` can be built exactly for buildable
      configurations. */
  lemma FirstPassIff(cfg: NetConfig, batch: nat, maxLen: nat)
    ensures Forward(cfg, map[], false, batch, maxLen).Ok? <==> Buildable(cfg)
  {
    if Buildable(cfg) {
      FirstPassBuilds(cfg, batch, maxLen);
    }
    if Forward(cfg, map[], false, batch, maxLen).Ok? {
      FirstPassBuildable(cfg, batch, maxLen);
    }
  }

  /** Variables one repetition creates: a weight and a bias per layer, the
      projection pair when projection is on, and the output pair. */
  function BlockVariableCount(cfg: NetConfig): nat
  {
    2 * |cfg.layers| + (if cfg.projection then 4 else 2)
  }

  /** Variables that repetitions from `k` on create in a first call:
      only the first repetition creates when they share one scope, every
      one does otherwise. */
  function CreatedFrom(cfg: NetConfig, k: nat): nat
    decreases cfg.repeats - k
  {
    if k >= cfg.repeats then 0
    else (if BlockScope(k, cfg.shareRepeats, false).reuse then 0 else BlockVariableCount(cfg)) + CreatedFrom(cfg, k + 1)
  }

  lemma {:induction false} CreatedFromCount(cfg: NetConfig, k: nat)
    ensures k >= cfg.repeats ==> CreatedFrom(cfg, k) == 0
    ensures k < cfg.repeats && cfg.shareRepeats ==> CreatedFrom(cfg, k) == if k == 0 then BlockVariableCount(cfg) else 0
    ensures k < cfg.repeats && !cfg.shareRepeats ==> CreatedFrom(cfg, k) == (cfg.repeats - k) * BlockVariableCount(cfg)
    decreases cfg.repeats - k
  {
    if k < cfg.repeats {
      CreatedFromCount(cfg, k + 1);
      var n := BlockVariableCount(cfg);
      var m := cfg.repeats - k;
      if cfg.shareRepeats {
        SharedScopes(k, k + 1, false);
      } else {
        UnsharedScopes(k, k, false);
        assert m * n == n + (m - 1) * n;
      }
    }
  }

  lemma BlockRequestsCount(cfg: NetConfig, scope: string, inDims: nat)
    requires TakenCount(cfg.layers) > 0
    ensures |BlockRequests(cfg, scope, inDims)| == BlockVariableCount(cfg)
  {
    EnterBlockFacts(scope, inDims, cfg.layers);
  }

  /** One repetition of a first call adds its whole set of variables to the
      store, unless it reuses the shared scope. */
  lemma BlockCreates(cfg: NetConfig, store: Store, k: nat, inDims: nat, batch: nat, maxLen: nat)
    requires RunBlock(cfg, store, k, inDims, false, batch, maxLen).Ok?
    ensures |RunBlock(cfg, store, k, inDims, false, batch, maxLen).value.1.Keys|
      == |store.Keys| + (if BlockScope(k, cfg.shareRepeats, false).reuse then 0 else BlockVariableCount(cfg))
  {
    RunBlockFacts(cfg, store, k, inDims, false, batch, maxLen);
    BlockRequestsCount(cfg, BlockScope(k, cfg.shareRepeats, false).name, inDims);
  }

  lemma {:induction false} CreatedCountFrom(cfg: NetConfig, acc: Pass, k: nat, batch: nat, maxLen: nat)
    requires |cfg.layers| > 0
    requires PassSoFar(cfg, acc, k, false, batch, maxLen)
    requires RunBlocks(cfg, acc, k, InDimsAt(cfg, k), false, batch, maxLen).Ok?
    ensures |RunBlocks(cfg, acc, k, InDimsAt(cfg, k), false, batch, maxLen).value.store.Keys|
      == |acc.store.Keys| + CreatedFrom(cfg, k)
    decreases cfg.repeats - k
  {
    if k < cfg.repeats {
      var inDims := InDimsAt(cfg, k);
      RunBlockFacts(cfg, acc.store, k, inDims, false, batch, maxLen);
      var bs := RunBlock(cfg, acc.store, k, inDims, false, batch, maxLen).value;
      var b := bs.0;
      var acc' := Pass(acc.scores + [b.scores], [batch, maxLen, b.outDims], acc.blocks + [b], acc.l2Terms + b.l2Terms, bs.1);
      PassStep(cfg, acc, b, bs.1, acc', k, false, batch, maxLen);
      CreatedCountFrom(cfg, acc', k + 1, batch, maxLen);
      BlockCreates(cfg, acc.store, k, inDims, batch, maxLen);
    }
  }

  /** Variables a successful first call creates on an empty store: the
      initial convolution's pair, plus one repetition's worth when the
      repetitions share a scope, or one per repetition otherwise. */
  lemma ParameterCount(cfg: NetConfig, batch: nat, maxLen: nat)
    requires Forward(cfg, map[], false, batch, maxLen).Ok?
    ensures |Forward(cfg, map[], false, batch, maxLen).value.store.Keys|
      == 2 + (if cfg.shareRepeats then 1 else cfg.repeats) * BlockVariableCount(cfg)
  {
    FirstPassUnfolds(cfg, batch, maxLen);
    var s1 := GetVariables(map[], Conv0Requests(cfg), false).value;
    CreatedCountFrom(cfg, Pass([], [], [], [], s1), 0, batch, maxLen);
    CreatedTotal(cfg);
  }

  lemma CreatedTotal(cfg: NetConfig)
    requires cfg.repeats > 0
    ensures CreatedFrom(cfg, 0) == (if cfg.shareRepeats then 1 else cfg.repeats) * BlockVariableCount(cfg)
  {
    CreatedFromCount(cfg, 0);
  }

  /** A successful first call is the repetitions run on the store holding
      the initial convolution's two variables. */
  lemma FirstPassUnfolds(cfg: NetConfig, batch: nat, maxLen: nat)
    requires Forward(cfg, map[], false, batch, maxLen).Ok?
    ensures |cfg.layers| > 0 && cfg.repeats > 0
    ensures GetVariables(map[], Conv0Requests(cfg), false).Ok?
    ensures var s1 := GetVariables(map[], Conv0Requests(cfg), false).value;
      && |s1.Keys| == 2
      && RunBlocks(cfg, Pass([], [], [], [], s1), 0, InDimsAt(cfg, 0), false, batch, maxLen)
         == Forward(cfg, map[], false, batch, maxLen)
  {
  }

  /** One repetition in the shared scope without projection, one taken
      layer of eight filters: a batch of two sequences padded to length
      four yields a single (2, 4, 3) score tensor, and the output layer
      reads the full concatenated width of eight channels. */
  lemma SingleLayerExample()
    ensures var cfg := NetConfig(3, 50, 1, true, false, [Layer("conv1", 1, 3, 8, "xavier", true)]);
      var r := Forward(cfg, map[], false, 2, 4);
      && r.Ok?
      && r.value.scores == [ScoreTensor(0, [2, 4, 3])]
      && r.value.blocks[0].projWidth == 8
      && |r.value.store.Keys| == 6
  {
    SingleLayerFacts(NetConfig(3, 50, 1, true, false, [Layer("conv1", 1, 3, 8, "xavier", true)]), 2, 4);
  }

  lemma SingleLayerFacts(cfg: NetConfig, batch: nat, maxLen: nat)
    requires cfg.repeats == 1 && cfg.shareRepeats && !cfg.projection
    requires cfg.layers == [Layer("conv1", 1, 3, 8, "xavier", true)]
    ensures var r := Forward(cfg, map[], false, batch, maxLen);
      && r.Ok?
      && r.value.scores == [ScoreTensor(0, [batch, maxLen, cfg.numClasses])]
      && r.value.blocks[0].projWidth == 8
      && |r.value.store.Keys| == 6
  {
    assert TakenFilters(cfg.layers) == [8] by {
      assert cfg.layers[1..] == [];
    }
    assert TakenWidth(cfg.layers) == 8 by {
      assert [8][1..] == [];
    }
    assert AllLayersOk(cfg.layers) by {
      assert LayerOk(cfg.layers[0]);
    }
    FirstPassIff(cfg, batch, maxLen);
    SingleLayerCount(cfg, batch, maxLen);
    SingleLayerPass(cfg, Forward(cfg, map[], false, batch, maxLen).value, batch, maxLen);
  }

  lemma SingleLayerPass(cfg: NetConfig, p: Pass, batch: nat, maxLen: nat)
    requires cfg.repeats == 1 && !cfg.projection && |cfg.layers| > 0 && TakenWidth(cfg.layers) == 8
    requires PassSoFar(cfg, p, 1, false, batch, maxLen)
    ensures p.scores == [ScoreTensor(0, [batch, maxLen, cfg.numClasses])]
    ensures p.blocks[0].projWidth == 8
  {
    assert BlockFacts(cfg, p.blocks[0], 0, false, batch, maxLen);
  }

  lemma SingleLayerCount(cfg: NetConfig, batch: nat, maxLen: nat)
    requires cfg.shareRepeats && !cfg.projection && |cfg.layers| == 1
    requires Forward(cfg, map[], false, batch, maxLen).Ok?
    ensures |Forward(cfg, map[], false, batch, maxLen).value.store.Keys| == 6
  {
    ParameterCount(cfg, batch, maxLen);
    assert BlockVariableCount(cfg) == 4;
  }
}

=== FILE: variables.dfy ===
/** The trainable-variable store as `forward` uses it. Inside a variable
    scope opened with `reuse = false`, asking for a variable by name
    creates it and fails if the name is taken; with `reuse = true` the
    variable must already exist with the requested shape and is handed
    back unchanged. */
module Variables {
  import opened Layers

  /** A variable's identity: the variable scope under `forward` ("" for
      the initial convolution, "block..." for a repetition) and its local
      name. */
  datatype Var = Var(scope: string, local: string)

  datatype ParamInit = WeightInit(scheme: string) | BiasConst(value: real)

  datatype Param = Param(shape: seq<int>, init: ParamInit)

  datatype Request = Request(v: Var, param: Param)

  type Store = map<Var, Param>

  /** Graph-construction failures the forward pass can raise. */
  datatype BuildError =
    | NoLayers                 // `layers_map[0]` on an empty list
    | NoTakenLayers            // concatenation of an empty list
    | NoRepetitions            // the final hidden state is never bound
    | InvalidName(scope: string, name: string)
    | NegativeDimension(v: Var, shape: seq<int>)
    | BadDilation(scope: string, layer: string, rate: int)
    | AlreadyExists(v: Var)
    | DoesNotExist(v: Var)
    | ShapeMismatch(v: Var, stored: seq<int>, requested: seq<int>)

  datatype Result<+T> = Ok(value: T) | Err(error: BuildError) {
    predicate IsFailure()
    {
      Err?
    }

    function PropagateFailure<U>(): Result<U>
      requires Err?
    {
      Err(error)
    }

    function Extract(): T
      requires Ok?
    {
      value
    }
  }

  /** The store holds the requested variable with the requested shape. */
  predicate Present(store: Store, r: Request)
  {
    r.v in store && store[r.v].shape == r.param.shape
  }

  predicate Satisfies(store: Store, reqs: seq<Request>)
  {
    forall r :: r in reqs ==> Present(store, r)
  }

  /** `big` keeps every variable of `small` unchanged. */
  predicate Extends(small: Store, big: Store)
  {
    forall v :: v in small ==> v in big && big[v] == small[v]
  }

  predicate Distinct(reqs: seq<Request>)
  {
    forall i, j :: 0 <= i < j < |reqs| ==> reqs[i].v != reqs[j].v
  }

  /** Every request names a new variable, and no two name the same one. */
  predicate Fresh(store: Store, reqs: seq<Request>)
  {
    Distinct(reqs) && forall r :: r in reqs ==> r.v !in store
  }

  function VarsOf(reqs: seq<Request>): set<Var>
  {
    set r | r in reqs :: r.v
  }

  /** One `get_variable` call. */
  function GetVariable(store: Store, r: Request, reuse: bool): (res: Result<Store>)
    ensures res.Ok? <==> (if reuse then Present(store, r) else r.v !in store)
    ensures res.Ok? ==> Extends(store, res.value) && Present(res.value, r)
    ensures res.Ok? && reuse ==> res.value == store
    ensures res.Ok? && !reuse ==> res.value.Keys == store.Keys + {r.v} && res.value[r.v] == r.param
  {
    if reuse then
      if r.v !in store then Err(DoesNotExist(r.v))
      else if store[r.v].shape != r.param.shape then Err(ShapeMismatch(r.v, store[r.v].shape, r.param.shape))
      else Ok(store)
    else if r.v in store then Err(AlreadyExists(r.v))
    else Ok(store[r.v := r.param])
  }

  /** A run of `get_variable` calls in one scope, stopping at the first
      failure. Reusing succeeds exactly when everything is there with the
      right shape and creates nothing; creating succeeds exactly when all
      names are new and pairwise different, and adds one variable per
      request. */
  function GetVariables(store: Store, reqs: seq<Request>, reuse: bool): (res: Result<Store>)
    ensures reuse ==> (res.Ok? <==> Satisfies(store, reqs))
    ensures !reuse ==> (res.Ok? <==> Fresh(store, reqs))
    ensures res.Ok? ==> Extends(store, res.value) && Satisfies(res.value, reqs)
    ensures res.Ok? && reuse ==> res.value == store
    ensures res.Ok? && !reuse ==> res.value.Keys == store.Keys + VarsOf(reqs)
    ensures res.Ok? && !reuse ==> |res.value.Keys| == |store.Keys| + |reqs|
    decreases |reqs|
  {
    if |reqs| == 0 then Ok(store)
    else
      var s1 :- GetVariable(store, reqs[0], reuse);
      var res := GetVariables(s1, reqs[1..], reuse);
      GetVariablesStep(store, reqs, reuse, s1, res);
      res
  }

  lemma GetVariablesStep(store: Store, reqs: seq<Request>, reuse: bool, s1: Store, res: Result<Store>)
    requires |reqs| > 0
    requires GetVariable(store, reqs[0], reuse) == Ok(s1)
    requires reuse ==> (res.Ok? <==> Satisfies(s1, reqs[1..]))
    requires !reuse ==> (res.Ok? <==> Fresh(s1, reqs[1..]))
    requires res.Ok? ==> Extends(s1, res.value) && Satisfies(res.value, reqs[1..])
    requires res.Ok? && reuse ==> res.value == s1
    requires res.Ok? && !reuse ==> res.value.Keys == s1.Keys + VarsOf(reqs[1..])
    requires res.Ok? && !reuse ==> |res.value.Keys| == |s1.Keys| + |reqs[1..]|
    ensures reuse ==> (res.Ok? <==> Satisfies(store, reqs))
    ensures !reuse ==> (res.Ok? <==> Fresh(store, reqs))
    ensures res.Ok? ==> Extends(store, res.value) && Satisfies(res.value, reqs)
    ensures res.Ok? && !reuse ==> res.value.Keys == store.Keys + VarsOf(reqs)
    ensures res.Ok? && !reuse ==> |res.value.Keys| == |store.Keys| + |reqs|
  {
    if reuse {
      ReuseStep(store, reqs, s1, res);
    } else {
      CreateStep(store, reqs, s1, res);
    }
  }

  lemma ReuseStep(store: Store, reqs: seq<Request>, s1: Store, res: Result<Store>)
    requires |reqs| > 0
    requires GetVariable(store, reqs[0], true) == Ok(s1)
    requires res.Ok? <==> Satisfies(s1, reqs[1..])
    requires res.Ok? ==> res.value == s1
    ensures res.Ok? <==> Satisfies(store, reqs)
    ensures res.Ok? ==> Extends(store, res.value) && Satisfies(res.value, reqs)
  {
    SatisfiesCons(store, reqs);
  }

  lemma CreateStep(store: Store, reqs: seq<Request>, s1: Store, res: Result<Store>)
    requires |reqs| > 0
    requires GetVariable(store, reqs[0], false) == Ok(s1)
    requires res.Ok? <==> Fresh(s1, reqs[1..])
    requires res.Ok? ==> Extends(s1, res.value) && Satisfies(res.value, reqs[1..])
    requires res.Ok? ==> res.value.Keys == s1.Keys + VarsOf(reqs[1..])
    requires res.Ok? ==> |res.value.Keys| == |s1.Keys| + |reqs[1..]|
    ensures res.Ok? <==> Fresh(store, reqs)
    ensures res.Ok? ==> Extends(store, res.value) && Satisfies(res.value, reqs)
    ensures res.Ok? ==> res.value.Keys == store.Keys + VarsOf(reqs)
    ensures res.Ok? ==> |res.value.Keys| == |store.Keys| + |reqs|
  {
    FreshCons(store, reqs, s1);
    if res.Ok? {
      CreateKeys(store, reqs, s1, res.value);
      SatisfiesCons(res.value, reqs);
      assert Present(res.value, reqs[0]);
    }
  }

  lemma CreateKeys(store: Store, reqs: seq<Request>, s1: Store, t: Store)
    requires |reqs| > 0 && reqs[0].v !in store
    requires s1.Keys == store.Keys + {reqs[0].v}
    requires t.Keys == s1.Keys + VarsOf(reqs[1..])
    requires |t.Keys| == |s1.Keys| + |reqs[1..]|
    ensures t.Keys == store.Keys + VarsOf(reqs)
    ensures |t.Keys| == |store.Keys| + |reqs|
  {
    VarsOfCons(reqs);
    assert |store.Keys + {reqs[0].v}| == |store.Keys| + 1;
  }

  lemma SatisfiesCons(store: Store, reqs: seq<Request>)
    requires |reqs| > 0
    ensures Satisfies(store, reqs) <==> Present(store, reqs[0]) && Satisfies(store, reqs[1..])
  {
    assert forall r :: r in reqs <==> r == reqs[0] || r in reqs[1..];
  }

  lemma VarsOfCons(reqs: seq<Request>)
    requires |reqs| > 0
    ensures VarsOf(reqs) == {reqs[0].v} + VarsOf(reqs[1..])
  {
    assert forall r :: r in reqs <==> r == reqs[0] || r in reqs[1..];
  }

  lemma FreshCons(store: Store, reqs: seq<Request>, s1: Store)
    requires |reqs| > 0
    requires s1.Keys == store.Keys + {reqs[0].v}
    ensures Fresh(store, reqs) <==> reqs[0].v !in store && Fresh(s1, reqs[1..])
  {
    assert forall r :: r in reqs <==> r == reqs[0] || r in reqs[1..];
    if Fresh(store, reqs) {
      forall r | r in reqs[1..]
        ensures r.v != reqs[0].v
      {
        var j :| 0 <= j < |reqs[1..]| && reqs[1..][j] == r;
        assert reqs[j + 1] == r;
      }
      forall i, j | 0 <= i < j < |reqs[1..]|
        ensures reqs[1..][i].v != reqs[1..][j].v
      {
        assert reqs[1..][i] == reqs[i + 1] && reqs[1..][j] == reqs[j + 1];
      }
    }
    if reqs[0].v !in store && Fresh(s1, reqs[1..]) {
      forall i, j | 0 <= i < j < |reqs|
        ensures reqs[i].v != reqs[j].v
      {
        if i == 0 {
          assert reqs[j] in reqs[1..];
        } else {
          assert reqs[1..][i - 1] == reqs[i] && reqs[1..][j - 1] == reqs[j];
        }
      }
    }
  }

  lemma SatisfiesAppend(store: Store, a: seq<Request>, b: seq<Request>)
    ensures Satisfies(store, a + b) <==> Satisfies(store, a) && Satisfies(store, b)
  {
    assert forall r :: r in a + b <==> r in a || r in b;
  }

  lemma FreshPrefix(store: Store, a: seq<Request>, b: seq<Request>)
    requires Fresh(store, a + b)
    ensures Fresh(store, a)
  {
    forall i, j | 0 <= i < j < |a|
      ensures a[i].v != a[j].v
    {
      assert (a + b)[i] == a[i] && (a + b)[j] == a[j];
    }
  }

  /** Creating `a` and then `b` is the same as creating `a + b` at once. */
  lemma FreshAppend(store: Store, a: seq<Request>, b: seq<Request>, s1: Store)
    requires s1.Keys == store.Keys + VarsOf(a)
    ensures Fresh(store, a + b) <==> Fresh(store, a) && Fresh(s1, b)
  {
    var ab := a + b;
    assert forall r :: r in ab <==> r in a || r in b;
    if Fresh(store, ab) {
      FreshPrefix(store, a, b);
      forall i, j | 0 <= i < j < |b|
        ensures b[i].v != b[j].v
      {
        assert ab[|a| + i] == b[i] && ab[|a| + j] == b[j];
      }
      forall r | r in b
        ensures r.v !in s1
      {
        var j :| 0 <= j < |b| && b[j] == r;
        assert ab[|a| + j] == r;
        forall i | 0 <= i < |a|
          ensures a[i].v != r.v
        {
          assert ab[i] == a[i];
        }
        assert r.v !in VarsOf(a);
      }
    }
    if Fresh(store, a) && Fresh(s1, b) {
      forall i, j | 0 <= i < j < |ab|
        ensures ab[i].v != ab[j].v
      {
        if j < |a| {
          assert ab[i] == a[i] && ab[j] == a[j];
        } else if i < |a| {
          assert ab[i] == a[i] && ab[j] == b[j - |a|];
          assert a[i].v in VarsOf(a);
          assert b[j - |a|] in b;
        } else {
          assert ab[i] == b[i - |a|] && ab[j] == b[j - |a|];
        }
      }
    }
  }

  lemma ExtendsKeepsSatisfies(small: Store, big: Store, reqs: seq<Request>)
    requires Extends(small, big) && Satisfies(small, reqs)
    ensures Satisfies(big, reqs)
  {
    forall q | q in reqs
      ensures Present(big, q)
    {
      assert Present(small, q);
    }
  }

  lemma VarsOfAppend(a: seq<Request>, b: seq<Request>)
    ensures VarsOf(a + b) == VarsOf(a) + VarsOf(b)
  {
    assert forall q :: q in a + b <==> q in a || q in b;
  }

  /** Keys added in two steps are the keys added at once. */
  lemma KeysChain(x: set<Var>, y: set<Var>, v: set<Var>, z: set<Var>, w: set<Var>, u: set<Var>)
    requires v == x + y && w == v + z && u == y + z
    ensures w == x + u
  {
  }
}
